=== FILE: README.md ===
# OSINTRA dashboard and animation core, in Dafny

This project models the client-side logic of the OSINTRA organisation site, a React and
TypeScript front end talking to a JSON API. It covers:

- **Animation bootstrap and teardown** (`initAnimations.ts`). Four module-level slots hold
  the Locomotive Scroll instance, the GSAP engine, the ScrollTrigger plugin and the
  ScrollReveal instance. `initAnimations` fills them one library at a time; each library
  block swallows its own errors. `destroyAnimations` releases what it can.
  - Files: `animations.dfy`, plus library handles and call records in `common.dfy`.
- **The reveal wrapper** (`ScrollReveal.tsx`). The wrapper binds its element to a fresh
  ScrollReveal instance. When that fails, it fades the element in with inline styles
  over two steps.
  - File: `scroll_reveal.dfy`.
- **The testimonial avatar** (`TestimonialCard.tsx`). The card shows the photo, or else
  up to two initials taken from the name.
  - File: `testimonial_card.dfy`.
- **The proker edit page** (`ProkerEditPage.tsx`). It reads the proker id from the path,
  loads the record into a form, and toggles divisions. Editing a field clears that
  field's error. Submitting sends a PUT, and the outcome becomes SweetAlert dialogs and
  an errors map. A validation message is formatted one line per field, in
  `Object.entries` order.
  - Files: `proker_edit_page.dfy`, plus the shared toggle in `selection.dfy`, string
    operations in `text.dfy` and the property enumeration order in `property_order.dfy`.
- **The edit-divisions modal** (`EditDivisionsModal.tsx`). The selection is reloaded
  whenever the modal opens. An empty selection is refused. Saving sends a PUT that
  carries only `division_ids`. The failure text is picked by precedence.
  - File: `edit_divisions_modal.dfy`.
- **The proker detail page** (`ProkerDetailPage.tsx`). It covers:
  - reading the id as the last path segment;
  - the three parallel loads, with both body shapes of the positions and divisions
    endpoints;
  - grouping the committee members by `division_id` with a `reduce`, and listing the
    groups in `Object.values` order (array-index keys ascending, then the other keys in
    insertion order, as `property_order.dfy` defines for both pages);
  - the display cells and the edit link;
  - deleting a committee member, and the modals' refetch.
  - File: `proker_detail_page.dfy`.

Stateful pieces are classes whose methods update their fields:
`AnimationRegistry`, `RevealEffect`/`StyledNode`, `EditPageState`, `ModalState` and
`DetailPageState`. Each method's `ensures` ties the new state to pure specification
functions, and the lemmas prove what those functions mean. The loops of the source are
methods with invariants:
- `KillTriggers`, the ScrollTrigger `forEach`;
- `GroupByDivision`, the members `reduce`.

Everything outside the page logic becomes a parameter of the operation that uses it:
- network responses are `Outcome`/`Sent` values;
- the confirmation dialog's answer is a `bool`;
- dynamic imports and library constructors are `Outcome<Handle>`;
- the DOM lookup is a `Dom` value.

Requests, dialogs, router visits and library calls are returned as values, in the order
the code makes them.

Behaviour worth noting:
- **Container lookup.** The Locomotive container is looked up with a single
  `querySelector` on `containerSelector || '[data-scroll-container]'`. A selector that
  is given but matches nothing falls back to `document.scrollingElement`, never to the
  default selector.
- **Fallback exclusivity.** The reveal fallback is not exclusive with the library path.
  When `reveal` throws after the instance was created, both happen.
- **Teardown.** It does not always empty every slot:
  - a handle without a `destroy` function survives;
  - so does a `destroy` that throws;
  - so does the GSAP engine held without its plugin.
- **Edit page id.** The edit page reads the id as path piece 4. On the detail page's own
  edit link `/dashboard/prokers/{id}/edit`, that piece is `"edit"`.
- **Validation lines.** The alert lists each field of the parsed errors object once,
  with its last value. Fields whose names are array indices (`"0"`, `"12"`) come first,
  in ascending numeric order, whatever order the server sent them in.
- **Grouped view.** The grouped view reads `division.id` and `division.name` without a
  guard, while the table cells guard `division?.name`. A division whose first member
  arrives without a division object makes the grouped view throw.
- **Bare arrays.** The positions endpoint's normalisation turns a bare array body into
  `[]`. Only the divisions endpoint keeps a bare array.

## Model

| member | source | states |
|---|---|---|
| Animations.ContainerSelector | resources/js/initAnimations.ts:20 | the selector queried is the given one when it is non-empty, else `[data-scroll-container]` |
| Animations.ResolveContainer | resources/js/initAnimations.ts:20 | the container is the matched element; with no match it is the scrolling element, else the document element; the lookup fails exactly when the selector is invalid |
| Animations.InitReportsHeldHandles | resources/js/initAnimations.ts:13-71 | every handle `initAnimations` reports is the one held in its module slot |
| Animations.InitSlots | resources/js/initAnimations.ts:13-71 | specification of the slots after bootstrap: a slot is assigned as soon as its handle exists; specified by `InitReportsHeldHandles`, `InitEngineHeldWithoutPlugin`, `InitRevealHeldWhenRevealThrows`, `InitNothingAvailable`, `InitBlocksIsolated` |
| Animations.InitReport | resources/js/initAnimations.ts:14-65 | specification of the `InitResult`: a property is set only when its block completes; specified by the same lemmas and `InitEngineAndPluginTogether` |
| Animations.InitCalls | resources/js/initAnimations.ts:13-71 | specification of the library calls of the bootstrap, block by block; specified by `InitEngineAndPluginTogether`, `InitNothingAvailable`, `InitBlocksIsolated` |
| Animations.InitEngineAndPluginTogether | resources/js/initAnimations.ts:29-49 | `gsap` and `ScrollTrigger` are reported together, only when both imports resolved; without the engine no plugin registration or defaults call is made |
| Animations.InitBlocksIsolated | resources/js/initAnimations.ts:16-68 | the GSAP and ScrollReveal parts of the result, of all three of their slots and of their library calls depend only on their own library outcomes, whatever Locomotive does |
| Animations.InitEngineHeldWithoutPlugin | resources/js/initAnimations.ts:29-36 | when the plugin import fails the engine slot is still filled, the plugin slot keeps its old value, and nothing is reported |
| Animations.InitRevealHeldWhenRevealThrows | resources/js/initAnimations.ts:52-68 | when `reveal` throws, the ScrollReveal slot holds the instance but the result does not report it |
| Animations.InitNothingAvailable | resources/js/initAnimations.ts:13-71 | with no library available the result is empty, no library call is made and the slots are unchanged |
| Animations.DestroyIdleIsNoop | resources/js/initAnimations.ts:73-104 | with every slot empty, teardown changes nothing and calls nothing |
| Animations.DestroySlots | resources/js/initAnimations.ts:73-104 | specification of the slots after teardown; specified by `DestroyIdleIsNoop`, `DestroyClearsOnly`, `DestroyLeavesSurvivors`, `DestroyClearsPairDespiteKillFailures`, `InitThenDestroyEmpties` |
| Animations.DestroyCalls | resources/js/initAnimations.ts:73-104 | specification of the teardown calls: destroys, then the trigger kills; specified by `DestroyIdleIsNoop` and the `KillCalls` lemmas |
| Animations.KillCalls | resources/js/initAnimations.ts:96 | specification of the `forEach` kill calls, stopping at the first throwing `kill`; specified by `KillCallsOnlyListed` and `KillCallsReachAll` |
| Animations.DestroyClearsOnly | resources/js/initAnimations.ts:73-104 | a slot is only ever emptied, never filled, and exactly in these cases: Locomotive or ScrollReveal after its `destroy` returns; engine and plugin together when both are held |
| Animations.DestroyLeavesSurvivors | resources/js/initAnimations.ts:73-104 | a handle without `destroy` survives teardown, and so does the engine held alone |
| Animations.DestroyClearsPairDespiteKillFailures | resources/js/initAnimations.ts:92-100 | a failing `getAll` or a throwing `kill` does not stop the engine and plugin slots from being cleared |
| Animations.InitThenDestroyEmpties | resources/js/initAnimations.ts:13-104 | bootstrap followed by teardown leaves every slot empty when each instance has a `destroy` that returns and the plugin loaded whenever the engine did |
| Animations.KillCallsOnlyListed | resources/js/initAnimations.ts:96 | every `kill` call targets a listed trigger that has a `kill` function |
| Animations.KillCallsReachAll | resources/js/initAnimations.ts:96 | when no `kill` throws, every trigger with a `kill` function is killed |
| Animations.KillTriggers | resources/js/initAnimations.ts:96 | the iteration makes exactly the specified `kill` calls in order and reports a throw exactly when some `kill` throws |
| Animations.AnimationRegistry.constructor | resources/js/initAnimations.ts:8-11 | the module starts with all four slots empty |
| Animations.AnimationRegistry.InitAnimations | resources/js/initAnimations.ts:13-71 | new slots, result and library calls are those of the bootstrap specification, and every reported handle is held |
| Animations.AnimationRegistry.LoadLocomotive | resources/js/initAnimations.ts:16-26 | only the Locomotive slot changes; the constructor is called on the container with `smooth` and `lerp 0.08` once the import and the lookup succeed, and the slot is set and reported exactly when it returns |
| Animations.AnimationRegistry.LoadGsap | resources/js/initAnimations.ts:28-49 | only the engine and plugin slots change; registration and `power2.out` defaults are attempted when both imports resolve, and both are reported only if neither throws |
| Animations.AnimationRegistry.LoadScrollReveal | resources/js/initAnimations.ts:51-68 | only the ScrollReveal slot changes; the `.sr` reveal is requested on the fresh instance and reported only if it does not throw |
| Animations.AnimationRegistry.DestroyAnimations | resources/js/initAnimations.ts:73-104 | new slots and calls (destroys, then kills) are those of the teardown specification |
| Reveal.WithDefaults | resources/js/components/ui/ScrollReveal.tsx:12 | each omitted prop takes its default (`bottom`, `20px`, 600, 0) and a given prop is kept |
| Reveal.NodeOptions | resources/js/components/ui/ScrollReveal.tsx:25-31 | the options passed to `reveal(node, ...)`: the defaulted props and the fixed easing; used by `RunEffect` |
| Reveal.FallbackStart | resources/js/components/ui/ScrollReveal.tsx:35-36 | specification of the fallback's first step; specified by `FallbackStartHides` |
| Reveal.Transition | resources/js/components/ui/ScrollReveal.tsx:38 | the transition text with the duration in decimal; specified by `FallbackEndsVisible` |
| Reveal.FallbackFrame | resources/js/components/ui/ScrollReveal.tsx:38-40 | specification of the fallback's animation-frame step; specified by `FallbackEndsVisible` |
| Reveal.FallbackStartHides | resources/js/components/ui/ScrollReveal.tsx:35-36 | the first fallback step hides the element; only a `bottom` origin is offset, by exactly the distance |
| Reveal.FallbackEndsVisible | resources/js/components/ui/ScrollReveal.tsx:37-41 | after both fallback steps the element is visible and in place, with a transition whose decimal duration reads back as the configured one |
| Reveal.LibraryAndFallbackTogether | resources/js/components/ui/ScrollReveal.tsx:15-47 | when `reveal` throws on a created instance, the reveal was requested, the fallback still fades the element in to its visible end state, and the cleanup destroys that same instance |
| Reveal.RevealEffect.Cleanup | resources/js/components/ui/ScrollReveal.tsx:44-46 | the cleanup destroys the instance exactly when one exists and has `destroy` |
| Reveal.RunEffect | resources/js/components/ui/ScrollReveal.tsx:15-47 | a missing element does nothing; otherwise the node is revealed with the defaulted options and the fixed easing, and the fallback's first step and frame request happen exactly when the import fails or `reveal` throws |
| Reveal.AnimationFrame | resources/js/components/ui/ScrollReveal.tsx:37-41 | the frame callback writes the visible, in-place style with the configured transition |
| Testimonial.Initials | resources/js/components/public/TestimonialCard.tsx:15 | the initials are at most two characters |
| Testimonial.TakeTwo | resources/js/components/public/TestimonialCard.tsx:15 | `slice(0, 2)`: the first two pieces, or all when fewer |
| Testimonial.FirstChars | resources/js/components/public/TestimonialCard.tsx:15 | `map(n => n[0]).join('')`: at most one character per piece; specified through the `Initials` lemmas |
| Testimonial.InitialsOfOneWord | resources/js/components/public/TestimonialCard.tsx:15 | a single word gives its first letter |
| Testimonial.InitialsOfTwoWords | resources/js/components/public/TestimonialCard.tsx:15 | two space-free pieces give the first character of each, an empty piece (doubled or trailing space) contributing nothing |
| Testimonial.InitialsIgnoreLaterWords | resources/js/components/public/TestimonialCard.tsx:15 | words after the second do not change the initials |
| Testimonial.InitialsAfterLeadingSpace | resources/js/components/public/TestimonialCard.tsx:15 | a leading space uses up one of the two places, so only one initial shows |
| Testimonial.AvatarOf | resources/js/components/public/TestimonialCard.tsx:15 | a non-empty photo is shown with alt `{name} photo`; otherwise the initials badge |
| Testimonial.RoleLine | resources/js/components/public/TestimonialCard.tsx:19 | the role line appears exactly for a non-empty role, showing it |
| Selection.ToggleAbsentAppends | resources/js/pages/dashboard/ProkerEditPage.tsx:73-80 | toggling an unselected id appends it at the end |
| Selection.Toggle | resources/js/pages/dashboard/ProkerEditPage.tsx:76-78 | the toggle updater; specified by `ToggleAbsentAppends`, `TogglePresentRemoves`, `ToggleFlipsMembership`, `ToggleKeepsOthersInOrder`, `ToggleTwiceRestores`, `ToggleKeepsDistinct` |
| Selection.TogglePresentRemoves | resources/js/components/dashboard/EditDivisionsModal.tsx:40-46 | toggling a selected id removes every copy of it and keeps every other id |
| Selection.ToggleFlipsMembership | resources/js/pages/dashboard/ProkerEditPage.tsx:76-78 | a toggle flips the membership of the toggled id only |
| Selection.ToggleKeepsOthersInOrder | resources/js/pages/dashboard/ProkerEditPage.tsx:76-78 | the other ids keep their relative order |
| Selection.ToggleTwiceRestores | resources/js/components/dashboard/EditDivisionsModal.tsx:40-46 | toggling an unselected id twice restores the selection exactly |
| Selection.ToggleKeepsDistinct | resources/js/components/dashboard/EditDivisionsModal.tsx:40-46 | a duplicate-free selection stays duplicate-free |
| Text.JoinSplit | resources/js/pages/dashboard/ProkerDetailPage.tsx:58 | joining the pieces of a split with the separator gives back the path |
| Text.Split | resources/js/pages/dashboard/ProkerDetailPage.tsx:58 | `split` on one character: at least one piece, none holding the separator; specified by `JoinSplit`, `SplitJoin`, `LastPiece` |
| Text.Join | resources/js/pages/dashboard/ProkerEditPage.tsx:123 | `join`; specified by `JoinSplit` and `SplitJoin` |
| Text.NatToString | resources/js/components/ui/ScrollReveal.tsx:38 | the decimal text of a number: digits only, no leading zero; specified by `NatToStringValue` |
| Text.SplitJoin | resources/js/pages/dashboard/ProkerEditPage.tsx:38 | splitting a join of separator-free pieces gives back the pieces |
| Text.LastPiece | resources/js/pages/dashboard/ProkerDetailPage.tsx:58 | `pop` of a split is the text after the last separator |
| Text.NatToStringValue | resources/js/components/ui/ScrollReveal.tsx:38 | the decimal text of a number reads back as that number |
| Text.IntToString | resources/js/components/dashboard/EditDivisionsModal.tsx:65 | an id renders as its decimal text, with a leading `-` when negative |
| Text.UpperFirst | resources/js/pages/dashboard/ProkerEditPage.tsx:120 | only a leading word character is changed, to its ASCII upper case |
| EditPage.SetFieldOnlyNamed | resources/js/pages/dashboard/ProkerEditPage.tsx:82-87 | an input change sets exactly the named field and keeps every other field and the selection |
| EditPage.SetField | resources/js/pages/dashboard/ProkerEditPage.tsx:84-87 | `{ ...prev, [name]: value }`; specified by `SetFieldOnlyNamed` |
| EditPage.DivisionIds | resources/js/pages/dashboard/ProkerEditPage.tsx:51 | the ids are the divisions' ids, position for position |
| EditPage.FormFromRecord | resources/js/pages/dashboard/ProkerEditPage.tsx:48-55 | the form copies title, date and status; a missing or empty description or location becomes `''`; missing divisions select nothing |
| EditPage.ProkerIdFromPath | resources/js/pages/dashboard/ProkerEditPage.tsx:38 | an id exists exactly when the path has more than four pieces, and it is piece 4, free of `/` |
| EditPage.EditLinkYieldsEditSegment | resources/js/pages/dashboard/ProkerEditPage.tsx:38 | on `/dashboard/prokers/{id}/edit` the id read is `"edit"` |
| EditPage.ErrorMap | resources/js/pages/dashboard/ProkerEditPage.tsx:115 | the errors state has exactly the fields of the server's entries, each holding the value of its last entry |
| EditPage.AssignEntry | resources/js/pages/dashboard/ProkerEditPage.tsx:115 | assigning one more entry keeps the errors state holding exactly the fields seen, each with its last value |
| EditPage.ErrorMapFromEntries | resources/js/pages/dashboard/ProkerEditPage.tsx:115 | every value in the errors state is one the server sent for that field |
| EditPage.FieldKeys | resources/js/pages/dashboard/ProkerEditPage.tsx:116 | the parsed object's property names: each field once, exactly the fields received, in the order first seen |
| EditPage.IsArrayIndex | resources/js/pages/dashboard/ProkerEditPage.tsx:116 | which property names `Object.entries` lists first; specified by `ArrayIndexIsCanonicalNumber` |
| EditPage.ArrayIndexIsCanonicalNumber | resources/js/pages/dashboard/ProkerEditPage.tsx:116 | a property name is an array index exactly when it is the decimal text of some n below 2^32 - 1 |
| EditPage.FieldOrder | resources/js/pages/dashboard/ProkerEditPage.tsx:116 | the order `Object.entries` lists the fields in; specified by `FieldOrderMeaning` |
| EditPage.FieldOrderMeaning | resources/js/pages/dashboard/ProkerEditPage.tsx:116 | every received field is listed exactly once and is a key of the errors state; array-index fields precede all others, ascending by value; the other fields end the list in the order first seen |
| EditPage.FieldLabel | resources/js/pages/dashboard/ProkerEditPage.tsx:118-120 | the label keeps the length, turns every `_` into a space and upper-cases a leading lower-case letter |
| EditPage.LinesFor | resources/js/pages/dashboard/ProkerEditPage.tsx:116-122 | the `map` callback applied to each listed field, with that field's value |
| EditPage.ErrorLines | resources/js/pages/dashboard/ProkerEditPage.tsx:116-122 | one `Label: message` line per distinct field, in `Object.entries` order, with the field's value in the errors state (its last entry) |
| EditPage.RepeatedFieldListedOnce | resources/js/pages/dashboard/ProkerEditPage.tsx:116-122 | a field sent twice yields one line, with the later message |
| EditPage.IndexFieldListedFirst | resources/js/pages/dashboard/ProkerEditPage.tsx:116-122 | a field named `"0"` is listed before `title` even when it arrives after it |
| EditPage.MessageText | resources/js/pages/dashboard/ProkerEditPage.tsx:121 | `Array.isArray(msgs) ? msgs[0] : msgs` in a template string (an empty list renders as "undefined"); used by `ErrorLines` |
| EditPage.ValidationText | resources/js/pages/dashboard/ProkerEditPage.tsx:116-123 | the lines joined with line breaks; specified by `ValidationTextLines` |
| EditPage.IdText | resources/js/pages/dashboard/ProkerEditPage.tsx:103 | `${prokerId}` (a missing id renders as "undefined"); used by `EditPageState.Submit` |
| EditPage.ValidationTextLines | resources/js/pages/dashboard/ProkerEditPage.tsx:116-123 | when no field or message holds a line break, splitting the alert text on line breaks gives back the per-field lines, one per distinct field |
| EditPage.SubmitAlert | resources/js/pages/dashboard/ProkerEditPage.tsx:105-137 | success shows "Berhasil!" / "Proker berhasil diperbarui" with the success icon; field errors show "Validasi Gagal!" with the formatted text; other failures show "Gagal!" with the server message or "Terjadi kesalahan" |
| EditPage.EditPageState.constructor | resources/js/pages/dashboard/ProkerEditPage.tsx:24-38 | the page starts loading with the empty form (`planned`), no errors, and the id read from the path |
| EditPage.EditPageState.Load | resources/js/pages/dashboard/ProkerEditPage.tsx:40-71 | the record is fetched exactly when the id is non-empty; success fills the form, failure alerts and returns to the list; loading ends either way; without an id nothing changes |
| EditPage.EditPageState.ToggleDivision | resources/js/pages/dashboard/ProkerEditPage.tsx:73-80 | only the form's selection changes, by the toggle |
| EditPage.EditPageState.InputChange | resources/js/pages/dashboard/ProkerEditPage.tsx:82-95 | the named field is set; its error is blanked only if one was shown, and the other errors are kept |
| EditPage.EditPageState.Submit | resources/js/pages/dashboard/ProkerEditPage.tsx:97-141 | the whole form is PUT to `/prokers/{id}`; errors, alert and list visit follow the outcome, and `submitting` ends false |
| DivisionsModal.TruthyIds | resources/js/components/dashboard/EditDivisionsModal.tsx:30-32 | the ids are those of present entries with a non-zero id, never 0, at most one per entry |
| DivisionsModal.TruthyIdsConcat | resources/js/components/dashboard/EditDivisionsModal.tsx:30-32 | the ids keep their entries' order |
| DivisionsModal.OpenSelection | resources/js/components/dashboard/EditDivisionsModal.tsx:28-37 | a missing or empty list selects nothing; otherwise the truthy ids are selected |
| DivisionsModal.OpenWithoutIdsSelectsNothing | resources/js/components/dashboard/EditDivisionsModal.tsx:28-33 | a list of entries without usable ids selects nothing |
| DivisionsModal.ErrorMessage | resources/js/components/dashboard/EditDivisionsModal.tsx:82-85 | the server's message wins over the error's message, which wins over the default; the text is never empty |
| DivisionsModal.ModalState.constructor | resources/js/components/dashboard/EditDivisionsModal.tsx:24-25 | the modal starts with nothing selected and not loading |
| DivisionsModal.ModalState.Render | resources/js/components/dashboard/EditDivisionsModal.tsx:98-174 | nothing renders while closed; submit is disabled exactly while saving or with an empty selection; cancel exactly while saving; the caption follows `loading` |
| DivisionsModal.ModalState.SyncOnOpen | resources/js/components/dashboard/EditDivisionsModal.tsx:27-38 | opening reloads the selection; a closed modal keeps it |
| DivisionsModal.ModalState.ToggleDivision | resources/js/components/dashboard/EditDivisionsModal.tsx:40-46 | the selection changes by the toggle only |
| DivisionsModal.ModalState.Submit | resources/js/components/dashboard/EditDivisionsModal.tsx:48-96 | an empty selection warns without a request; otherwise `division_ids` is PUT; success calls `onSuccess` then `onClose`; failure shows the precedence message; `loading` ends false and the selection is kept |
| DetailPage.Lookup | resources/js/pages/dashboard/ProkerDetailPage.tsx:69-72 | a key is found exactly when some member has it, and the last such member wins |
| DetailPage.DataOf | resources/js/pages/dashboard/ProkerDetailPage.tsx:70-72 | `.data` throws exactly on a `null` body and is undefined on anything but an object |
| DetailPage.OrEmpty | resources/js/pages/dashboard/ProkerDetailPage.tsx:70-72 | `value || []`: a truthy value is kept, anything else gives `[]` |
| DetailPage.NormalisePositions | resources/js/pages/dashboard/ProkerDetailPage.tsx:70 | positions normalisation throws exactly on `null`; an object gives its `data` member when truthy, else `[]`; any other body gives `[]` |
| DetailPage.NormaliseDivisions | resources/js/pages/dashboard/ProkerDetailPage.tsx:72 | a bare array is kept as is; any other body is normalised like positions |
| DetailPage.NormalisationForms | resources/js/pages/dashboard/ProkerDetailPage.tsx:70-72 | `{data: [...]}` unwraps for both endpoints, a bare array is kept only for divisions, `{}` gives `[]`, and `null` throws for both |
| DetailPage.Keys | resources/js/pages/dashboard/ProkerDetailPage.tsx:156-166 | the group keys are the members' division ids, each once |
| DetailPage.MembersOf | resources/js/pages/dashboard/ProkerDetailPage.tsx:156-166 | a group holds exactly the members with its division id |
| DetailPage.GroupingMeaning | resources/js/pages/dashboard/ProkerDetailPage.tsx:156-166 | the accumulator has one group per division id seen, holding that division's members in order, with the division object of its first member |
| DetailPage.AddMember | resources/js/pages/dashboard/ProkerDetailPage.tsx:157-165 | one step of the `reduce`: create the group on first sight, then push the member; specified by `AddMemberKeepsGrouped` |
| DetailPage.Grouping | resources/js/pages/dashboard/ProkerDetailPage.tsx:156-166 | the accumulator the `reduce` builds; specified by `GroupingMeaning` and `GroupsPartitionMembers` |
| DetailPage.GroupByDivision | resources/js/pages/dashboard/ProkerDetailPage.tsx:156-166 | the `reduce` loop builds exactly the specified accumulator, and its keys in insertion order |
| DetailPage.GroupsPartitionMembers | resources/js/pages/dashboard/ProkerDetailPage.tsx:156-166 | the groups partition the members: their sizes add up to the member count, and each member is in its own division's group only |
| DetailPage.GroupCount | resources/js/pages/dashboard/ProkerDetailPage.tsx:342 | there are as many groups as distinct division ids, and some exist exactly when the committee is non-empty |
| DetailPage.EnumerationOrder | resources/js/pages/dashboard/ProkerDetailPage.tsx:347 | `Object.values` key order for numeric keys: `PropertyOrder.EnumerationOrder` with keys in [0, 2^32 - 1) as array indices, ranked by value |
| PropertyOrder.SortBy | resources/js/pages/dashboard/ProkerDetailPage.tsx:347 | index keys are enumerated as a permutation sorted by rank |
| PropertyOrder.EnumerationOrder | resources/js/pages/dashboard/ProkerDetailPage.tsx:347 | property enumeration order: array-index keys ascending, then the rest in insertion order; specified by `EnumerationIsPermutation`, `IndexKeysFirst`, `OnlyIndexKeysAscending`, `NoIndexKeysInInsertionOrder` |
| PropertyOrder.EnumerationIsPermutation | resources/js/pages/dashboard/ProkerDetailPage.tsx:347 | enumeration lists every key exactly once, and keeps a duplicate-free key list duplicate-free |
| PropertyOrder.IndexKeysFirst | resources/js/pages/dashboard/ProkerDetailPage.tsx:347 | array-index keys come first, ascending, and no later key is an index |
| PropertyOrder.OnlyIndexKeysAscending | resources/js/pages/dashboard/ProkerDetailPage.tsx:347 | for any key list made only of array-index keys, the order is ascending and a permutation; `ListingByAscendingId` applies it to the page's own keys |
| PropertyOrder.NoIndexKeysInInsertionOrder | resources/js/pages/dashboard/ProkerEditPage.tsx:116 | with no array-index key, enumeration is insertion order |
| PropertyOrder.OtherThenIndex | resources/js/pages/dashboard/ProkerEditPage.tsx:116 | an index key added after a named key is enumerated before it |
| DetailPage.ListedGroups | resources/js/pages/dashboard/ProkerDetailPage.tsx:347 | the listing holds the group of each key, in key order |
| DetailPage.Listing | resources/js/pages/dashboard/ProkerDetailPage.tsx:347 | the groups `Object.values` yields from the `reduce` result, which the grouped view maps over; specified by `ListingMeaning` and `ListingByAscendingId`; whether the view renders them is `GroupedViewRenders` |
| DetailPage.ListingMeaning | resources/js/pages/dashboard/ProkerDetailPage.tsx:156-166 | the page lists each division's group exactly once, a permutation of the division ids seen, and the i-th group holds exactly that division's members in order, with the division object of the first of them |
| DetailPage.ListingByAscendingId | resources/js/pages/dashboard/ProkerDetailPage.tsx:347 | with ids below 2^32 - 1 (array-index keys) the listed groups come in strictly ascending `division_id` order, whatever order the members came in; larger ids are not array indices and keep insertion order |
| DetailPage.GroupHeadings | resources/js/pages/dashboard/ProkerDetailPage.tsx:347-349 | the `division.id`/`division.name` of each listed group, in order; it fails (the TypeError) exactly when some group has no division |
| DetailPage.ListedDivisionOfFirst | resources/js/pages/dashboard/ProkerDetailPage.tsx:156-166 | each listed group's division is that of the first member of its division |
| DetailPage.FirstDivisionListed | resources/js/pages/dashboard/ProkerDetailPage.tsx:156-166 | the first member of each division gives its division to some listed group |
| DetailPage.GroupedViewRenders | resources/js/pages/dashboard/ProkerDetailPage.tsx:347-349 | the grouped view renders exactly when the first member of every division has a division object; otherwise reading `division.id` throws |
| DetailPage.FirstMemberWithoutDivisionThrows | resources/js/pages/dashboard/ProkerDetailPage.tsx:347-349 | a committee whose first member has no division cannot be shown grouped |
| DetailPage.Cell | resources/js/pages/dashboard/ProkerDetailPage.tsx:232 | a cell shows the value when non-empty and `-` otherwise, never nothing |
| DetailPage.MemberCells | resources/js/pages/dashboard/ProkerDetailPage.tsx:321-323 | division, position and role cells show the name or `-` |
| DetailPage.SummaryOf | resources/js/pages/dashboard/ProkerDetailPage.tsx:232-240 | the header shows the location or `-`, and the committee size |
| DetailPage.EditLink | resources/js/pages/dashboard/ProkerDetailPage.tsx:193 | the edit button's target `/dashboard/prokers/{id}/edit`; specified by `EditLinkReadsEditAsId` |
| DetailPage.EditLinkReadsEditAsId | resources/js/pages/dashboard/ProkerDetailPage.tsx:193 | following the edit button, the edit page reads `"edit"` as the proker id |
| DetailPage.ProkerIdFromPath | resources/js/pages/dashboard/ProkerDetailPage.tsx:58 | the id has no `/` |
| DetailPage.ProkerIdIsLastSegment | resources/js/pages/dashboard/ProkerDetailPage.tsx:58 | the id is the text after the last `/` |
| DetailPage.EmptyIdStaysLoading | resources/js/pages/dashboard/ProkerDetailPage.tsx:58-82 | a path ending in `/` gives an empty id, so nothing is fetched |
| DetailPage.DetailPageState.constructor | resources/js/pages/dashboard/ProkerDetailPage.tsx:52-58 | the page starts loading, with no proker, empty lists and the id read from the path |
| DetailPage.DetailPageState.CurrentScreen | resources/js/pages/dashboard/ProkerDetailPage.tsx:123-141 | the loading screen while loading, "not found" without a proker, and the details otherwise |
| DetailPage.DetailPageState.FetchData | resources/js/pages/dashboard/ProkerDetailPage.tsx:60-83 | only a non-empty id fetches three things in parallel; any failure alerts and stores nothing; otherwise the stores run in order and stop at the first body that throws; loading ends false |
| DetailPage.DetailPageState.DeletePanitia | resources/js/pages/dashboard/ProkerDetailPage.tsx:85-107 | the confirmation dialog is shown on every call and its answer is the `confirmed` parameter; only a confirmed delete with a loaded proker sends the DELETE; success alerts and refetches; any failure shows "Gagal!"; a failed refetch keeps the old record |
| DetailPage.DetailPageState.Refresh | resources/js/pages/dashboard/ProkerDetailPage.tsx:109-121 | with a loaded proker it refetches and stores the response; without one nothing is sent |

## Left out

- Network requests, SweetAlert dialogs, `router.visit` and dynamic imports are not
  performed. Their outcomes are parameters, and the requests, dialogs and visits are
  returned as values.
- `console` logging is not modelled.
- Asynchronous interleaving is not modelled: each handler runs as one atomic step with
  its awaits already settled. Not captured:
  - `loading`/`submitting` being visible as true while a request is in flight;
  - a component re-rendering or unmounting mid-request;
  - the reveal cleanup running before the import resolves, in which case `sr` is still
    `null` and the instance created later is never destroyed.
- The dialogs' `.then` callbacks are modelled as running in order. This covers the
  success visit on the edit page and `onSuccess`/`onClose` in the modal.
- JSX layout, CSS classes, icons and the modal's list of division buttons are not
  modelled. Only the values the markup shows or uses to decide something are.
- Date formatting with `toLocaleDateString` and the status badge colours on the detail
  page are not modelled. They are display formatting that delegates to the browser.
- The add-panitia modal that the detail page opens is not part of this model. Only the
  refetch its `onSuccess` triggers is.
- Library internals are opaque handles: Locomotive, GSAP, ScrollTrigger and
  ScrollReveal. Only the calls made into them and whether those calls throw are
  modelled. The `default` export unwrapping of each dynamic import is folded into the
  import's outcome.
- Reveal.RunEffect: `ref.current` is a nullable node parameter. React's ref and effect
  scheduling are not modelled.
- Testimonial.Initials: `name` is a string. The `undefined` name that `name?.split`
  tolerates is not modelled, and neither are code units beyond single `char`s.
- DetailPage.GroupByDivision: the accumulator object is a map value. The sharing of the
  `members` array between the accumulator and its groups is not modelled.
- Reveal.WithDefaults: `duration` and `delay` are natural numbers. A fractional or negative
  timing, which JavaScript would render as for example `0.5ms` or `-100ms` in the fallback
  transition, is not modelled.
- Strings are sequences of Dafny `char`s, which are Unicode scalar values. JavaScript
  strings are UTF-16 code units, so the lone surrogate that `n[0]` yields for a name
  starting with an emoji cannot occur in the model.
- EditPage.FieldKeys: the server's `errors` value is modelled as the members of a JSON
  object, in the order the text lists them. An `errors` that is an array or a string,
  which `Object.entries` would also enumerate, is not modelled.
- Integers are unbounded. Ids and durations never reach JavaScript's number limits in
  this code, and no wrap-around is modelled.

=== FILE: animations.dfy ===
/** The animation bootstrap of `resources/js/initAnimations.ts`: four module-level
    slots holding the Locomotive Scroll instance, the GSAP engine, the ScrollTrigger
    plugin and the ScrollReveal instance; `initAnimations` fills them, each library in
    its own try/catch, and `destroyAnimations` clears some of them.

    Every dynamic import, constructor call and library method that may throw is an
    input outcome; every call whose arguments the code fixes is recorded in a trace. */
module Animations {
  import opened Common

  /** What `document.querySelector(selector)` does: finds an element, finds none, or
      throws on a syntactically invalid selector. */
  datatype QueryResult = Match(el: ElementId) | NoMatch | InvalidSelector

  /** The parts of the document the bootstrap reads. */
  datatype Dom = Dom(
    select: string -> QueryResult,
    scrollingElement: Option<ElementId>,
    documentElement: ElementId)

  /** How each library step turns out during one `initAnimations` call. */
  datatype InitEnv = InitEnv(
    dom: Dom,
    locomotiveImport: bool,           // import('locomotive-scroll') resolves
    locomotiveNew: Outcome<Handle>,   // new Locomotive({...}) returns or throws
    gsapImport: Outcome<Handle>,      // import('gsap'), its default export or the module
    scrollTriggerImport: Outcome<Handle>, // import('gsap/ScrollTrigger'), the plugin object
    registerPluginThrows: bool,       // gsap.registerPlugin(ScrollTrigger) throws
    defaultsThrows: bool,             // gsap.defaults({ ease }) throws
    revealFactory: Outcome<Handle>,   // import('scrollreveal') and the factory call sr()
    revealThrows: bool)               // instance.reveal('.sr', {...}) throws

  /** How each release step turns out during one `destroyAnimations` call. */
  datatype DestroyEnv = DestroyEnv(
    locomotiveDestroyThrows: bool,    // the Locomotive instance's destroy() throws
    revealDestroyThrows: bool,        // the ScrollReveal instance's destroy() throws
    getAll: Outcome<seq<Trigger>>,    // ScrollTrigger.getAll() returns the live triggers or throws
    failingKills: set<nat>)           // the triggers whose kill() throws

  /** The four slots, and equally the `InitResult` record (a field is `None` where the
      result has no property). */
  datatype Handles = Handles(
    locomotive: Option<Handle>,
    gsap: Option<Handle>,
    scrollTrigger: Option<Handle>,
    scrollReveal: Option<Handle>)

  const NoHandles := Handles(None, None, None, None)

  const DefaultContainerSelector := "[data-scroll-container]"
  const LocomotiveLerp: real := 0.08
  const DefaultEase := "power2.out"
  const SiteRevealSelector := ".sr"
  const SiteReveal := SiteRevealOptions("24px", "bottom", 700, 80, 1, 0, "cubic-bezier(.2,.8,.2,1)")

  // ---------------------------------------------------------------------------
  // Specification of initAnimations

  /** `containerSelector || '[data-scroll-container]'`. */
  function ContainerSelector(containerSelector: Option<string>): (r: string)
    ensures Truthy(containerSelector) ==> r == containerSelector.value
    ensures !Truthy(containerSelector) ==> r == DefaultContainerSelector
  {
    OrElse(containerSelector, DefaultContainerSelector)
  }

  /** The scroll container: the element matched by the one selector queried, else
      `document.scrollingElement`, else `document.documentElement`; an invalid
      selector throws. A given selector that matches nothing does not fall back to
      the default selector. */
  function ResolveContainer(containerSelector: Option<string>, dom: Dom): (r: Outcome<ElementId>)
    ensures r.Fail? <==> dom.select(ContainerSelector(containerSelector)).InvalidSelector?
    ensures dom.select(ContainerSelector(containerSelector)).Match? ==>
              r == Ok(dom.select(ContainerSelector(containerSelector)).el)
    ensures dom.select(ContainerSelector(containerSelector)).NoMatch? ==>
              r == Ok(if dom.scrollingElement.Some? then dom.scrollingElement.value else dom.documentElement)
  {
    match dom.select(ContainerSelector(containerSelector))
    case InvalidSelector => Fail
    case Match(el) => Ok(el)
    case NoMatch => Ok(if dom.scrollingElement.Some? then dom.scrollingElement.value else dom.documentElement)
  }

  /** The Locomotive block reaches its assignment. */
  predicate LocomotiveCreated(containerSelector: Option<string>, env: InitEnv)
  {
    env.locomotiveImport && ResolveContainer(containerSelector, env.dom).Ok? && env.locomotiveNew.Ok?
  }

  /** The GSAP block gets through registration and defaults. */
  predicate PluginRegistered(env: InitEnv)
  {
    env.gsapImport.Ok? && env.scrollTriggerImport.Ok? && !env.registerPluginThrows && !env.defaultsThrows
  }

  /** The ScrollReveal block gets through `reveal`. */
  predicate RevealBound(env: InitEnv)
  {
    env.revealFactory.Ok? && !env.revealThrows
  }

  /** The slots after `initAnimations`: a slot is assigned as soon as its handle exists,
      and a block that fails before that leaves the slot's old value. */
  function InitSlots(s: Handles, containerSelector: Option<string>, env: InitEnv): Handles
  {
    Handles(
      if LocomotiveCreated(containerSelector, env) then Some(env.locomotiveNew.value) else s.locomotive,
      if env.gsapImport.Ok? then Some(env.gsapImport.value) else s.gsap,
      if env.gsapImport.Ok? && env.scrollTriggerImport.Ok? then Some(env.scrollTriggerImport.value) else s.scrollTrigger,
      if env.revealFactory.Ok? then Some(env.revealFactory.value) else s.scrollReveal)
  }

  /** The `InitResult` record: a property is set only when its block completes. */
  function InitReport(containerSelector: Option<string>, env: InitEnv): Handles
  {
    Handles(
      if LocomotiveCreated(containerSelector, env) then Some(env.locomotiveNew.value) else None,
      if PluginRegistered(env) then Some(env.gsapImport.value) else None,
      if PluginRegistered(env) then Some(env.scrollTriggerImport.value) else None,
      if RevealBound(env) then Some(env.revealFactory.value) else None)
  }

  /** The call the Locomotive block makes: the constructor, once the container is found. */
  function LocomotiveCalls(containerSelector: Option<string>, env: InitEnv): seq<Call>
  {
    if env.locomotiveImport && ResolveContainer(containerSelector, env.dom).Ok?
    then [NewLocomotive(ResolveContainer(containerSelector, env.dom).value, true, LocomotiveLerp)]
    else []
  }

  /** The calls the GSAP block makes: registration, then the default ease. */
  function GsapCalls(env: InitEnv): seq<Call>
  {
    if env.gsapImport.Ok? && env.scrollTriggerImport.Ok?
    then [RegisterPlugin(env.gsapImport.value, env.scrollTriggerImport.value)]
         + (if env.registerPluginThrows then [] else [SetDefaults(env.gsapImport.value, DefaultEase)])
    else []
  }

  /** The call the ScrollReveal block makes: binding every `.sr` element. */
  function RevealCalls(env: InitEnv): seq<Call>
  {
    if env.revealFactory.Ok?
    then [RevealSelector(env.revealFactory.value, SiteRevealSelector, SiteReveal)]
    else []
  }

  /** The library calls `initAnimations` makes, block by block. */
  function InitCalls(containerSelector: Option<string>, env: InitEnv): seq<Call>
  {
    LocomotiveCalls(containerSelector, env) + GsapCalls(env) + RevealCalls(env)
  }

  /** Every handle reported in `result` is the one held in the matching slot. */
  predicate ReportsHeld(result: Handles, slots: Handles)
  {
    && (result.locomotive.Some? ==> result.locomotive == slots.locomotive)
    && (result.gsap.Some? ==> result.gsap == slots.gsap)
    && (result.scrollTrigger.Some? ==> result.scrollTrigger == slots.scrollTrigger)
    && (result.scrollReveal.Some? ==> result.scrollReveal == slots.scrollReveal)
  }

  lemma InitReportsHeldHandles(s: Handles, containerSelector: Option<string>, env: InitEnv)
    ensures ReportsHeld(InitReport(containerSelector, env), InitSlots(s, containerSelector, env))
  {
  }

  /** `result.gsap` and `result.ScrollTrigger` are set together, and only when both
      imports resolved: a plugin is never reported or registered without its engine. */
  lemma InitEngineAndPluginTogether(containerSelector: Option<string>, env: InitEnv)
    ensures InitReport(containerSelector, env).gsap.Some? <==> InitReport(containerSelector, env).scrollTrigger.Some?
    ensures InitReport(containerSelector, env).gsap.Some? ==> env.gsapImport.Ok? && env.scrollTriggerImport.Ok?
    ensures env.gsapImport.Fail? ==> forall c :: c in InitCalls(containerSelector, env) ==> !c.RegisterPlugin? && !c.SetDefaults?
  {
  }

  /** A failing block does not affect the others: the GSAP and ScrollReveal parts of
      the result, of the slots and of the calls depend only on their own outcomes. */
  lemma InitBlocksIsolated(s: Handles, containerSelector: Option<string>, env: InitEnv, env': InitEnv)
    requires env'.gsapImport == env.gsapImport && env'.scrollTriggerImport == env.scrollTriggerImport
    requires env'.registerPluginThrows == env.registerPluginThrows && env'.defaultsThrows == env.defaultsThrows
    requires env'.revealFactory == env.revealFactory && env'.revealThrows == env.revealThrows
    ensures InitReport(containerSelector, env').gsap == InitReport(containerSelector, env).gsap
    ensures InitReport(containerSelector, env').scrollTrigger == InitReport(containerSelector, env).scrollTrigger
    ensures InitReport(containerSelector, env').scrollReveal == InitReport(containerSelector, env).scrollReveal
    ensures InitSlots(s, containerSelector, env').gsap == InitSlots(s, containerSelector, env).gsap
    ensures InitSlots(s, containerSelector, env').scrollTrigger == InitSlots(s, containerSelector, env).scrollTrigger
    ensures InitSlots(s, containerSelector, env').scrollReveal == InitSlots(s, containerSelector, env).scrollReveal
    ensures GsapCalls(env') == GsapCalls(env) && RevealCalls(env') == RevealCalls(env)
  {
  }

  /** The engine slot is filled even when the plugin import fails, yet it is not
      reported; the plugin slot keeps its old value. */
  lemma InitEngineHeldWithoutPlugin(s: Handles, containerSelector: Option<string>, env: InitEnv)
    requires env.gsapImport.Ok? && env.scrollTriggerImport.Fail?
    ensures InitSlots(s, containerSelector, env).gsap == Some(env.gsapImport.value)
    ensures InitSlots(s, containerSelector, env).scrollTrigger == s.scrollTrigger
    ensures InitReport(containerSelector, env).gsap == None
  {
  }

  /** The ScrollReveal slot is filled even when `reveal` throws, yet it is not reported. */
  lemma InitRevealHeldWhenRevealThrows(s: Handles, containerSelector: Option<string>, env: InitEnv)
    requires env.revealFactory.Ok? && env.revealThrows
    ensures InitSlots(s, containerSelector, env).scrollReveal == Some(env.revealFactory.value)
    ensures InitReport(containerSelector, env).scrollReveal == None
  {
  }

  /** With every library unavailable the result is empty, no library call is made and
      the slots are untouched. */
  lemma InitNothingAvailable(s: Handles, containerSelector: Option<string>, env: InitEnv)
    requires !env.locomotiveImport && env.gsapImport.Fail? && env.revealFactory.Fail?
    ensures InitReport(containerSelector, env) == NoHandles
    ensures InitCalls(containerSelector, env) == []
    ensures InitSlots(s, containerSelector, env) == s
  {
  }

  // ---------------------------------------------------------------------------
  // Specification of destroyAnimations

  /** `h && typeof h.destroy === 'function'`, and the call returns normally. */
  predicate Released(h: Option<Handle>, destroyThrows: bool)
  {
    h.Some? && h.value.hasDestroy && !destroyThrows
  }

  /** The `destroy()` call made on a slot's handle, if any. */
  function DestroyCall(h: Option<Handle>): seq<Call>
  {
    if h.Some? && h.value.hasDestroy then [Destroy(h.value)] else []
  }

  /** `getAll().forEach(t => t.kill && t.kill())`: the `kill` calls made, in order; a
      throwing `kill` ends the iteration. */
  function KillCalls(ts: seq<Trigger>, failing: set<nat>): seq<Call>
    decreases |ts|
  {
    if ts == [] then []
    else if !ts[0].hasKill then KillCalls(ts[1..], failing)
    else [Kill(ts[0].id)] + (if ts[0].id in failing then [] else KillCalls(ts[1..], failing))
  }

  /** Some trigger's `kill` throws during the iteration. */
  predicate SomeKillThrows(ts: seq<Trigger>, failing: set<nat>)
  {
    exists i :: 0 <= i < |ts| && ts[i].hasKill && ts[i].id in failing
  }

  /** The slots after `destroyAnimations`. */
  function DestroySlots(s: Handles, env: DestroyEnv): Handles
  {
    Handles(
      if Released(s.locomotive, env.locomotiveDestroyThrows) then None else s.locomotive,
      if s.gsap.Some? && s.scrollTrigger.Some? then None else s.gsap,
      if s.gsap.Some? && s.scrollTrigger.Some? then None else s.scrollTrigger,
      if Released(s.scrollReveal, env.revealDestroyThrows) then None else s.scrollReveal)
  }

  /** The library calls `destroyAnimations` makes. */
  function DestroyCalls(s: Handles, env: DestroyEnv): seq<Call>
  {
    DestroyCall(s.locomotive) + DestroyCall(s.scrollReveal)
    + (if s.gsap.Some? && s.scrollTrigger.Some? && s.scrollTrigger.value.hasGetAll && env.getAll.Ok?
       then KillCalls(env.getAll.value, env.failingKills)
       else [])
  }

  /** With every slot empty, `destroyAnimations` changes nothing and calls nothing. */
  lemma DestroyIdleIsNoop(env: DestroyEnv)
    ensures DestroySlots(NoHandles, env) == NoHandles
    ensures DestroyCalls(NoHandles, env) == []
  {
  }

  /** A slot is only ever emptied, never filled, and it is emptied only in these cases:
      Locomotive and ScrollReveal after their `destroy()` returns, the engine and the
      plugin together when both are held. */
  lemma DestroyClearsOnly(s: Handles, env: DestroyEnv)
    ensures DestroySlots(s, env).locomotive == None <==> s.locomotive == None || Released(s.locomotive, env.locomotiveDestroyThrows)
    ensures DestroySlots(s, env).scrollReveal == None <==> s.scrollReveal == None || Released(s.scrollReveal, env.revealDestroyThrows)
    ensures DestroySlots(s, env).gsap == None <==> s.gsap == None || s.scrollTrigger.Some?
    ensures DestroySlots(s, env).scrollTrigger == None <==> s.scrollTrigger == None || s.gsap.Some?
    ensures DestroySlots(s, env).locomotive in {None, s.locomotive}
    ensures DestroySlots(s, env).scrollReveal in {None, s.scrollReveal}
    ensures DestroySlots(s, env).gsap in {None, s.gsap}
    ensures DestroySlots(s, env).scrollTrigger in {None, s.scrollTrigger}
  {
  }

  /** A handle without a `destroy` function survives, and so does the engine alone. */
  lemma DestroyLeavesSurvivors(s: Handles, env: DestroyEnv)
    ensures s.locomotive.Some? && !s.locomotive.value.hasDestroy ==> DestroySlots(s, env).locomotive == s.locomotive
    ensures s.scrollReveal.Some? && !s.scrollReveal.value.hasDestroy ==> DestroySlots(s, env).scrollReveal == s.scrollReveal
    ensures s.gsap.Some? && s.scrollTrigger.None? ==> DestroySlots(s, env).gsap == s.gsap
  {
  }

  /** Failures while killing triggers do not stop the engine and plugin slots from
      being cleared. */
  lemma DestroyClearsPairDespiteKillFailures(s: Handles, env: DestroyEnv)
    requires s.gsap.Some? && s.scrollTrigger.Some?
    requires env.getAll.Fail? || (env.getAll.Ok? && SomeKillThrows(env.getAll.value, env.failingKills))
    ensures DestroySlots(s, env).gsap == None && DestroySlots(s, env).scrollTrigger == None
  {
  }

  /** Bootstrap then teardown empties the registry when every created instance has a
      `destroy` that returns and the plugin loaded whenever the engine did. */
  lemma InitThenDestroyEmpties(containerSelector: Option<string>, env: InitEnv, denv: DestroyEnv)
    requires env.locomotiveNew.Ok? ==> env.locomotiveNew.value.hasDestroy
    requires env.revealFactory.Ok? ==> env.revealFactory.value.hasDestroy
    requires env.gsapImport.Ok? ==> env.scrollTriggerImport.Ok?
    requires !denv.locomotiveDestroyThrows && !denv.revealDestroyThrows
    ensures DestroySlots(InitSlots(NoHandles, containerSelector, env), denv) == NoHandles
  {
  }

  /** Every `kill` call is on a listed trigger that has a `kill` function. */
  lemma {:induction false} KillCallsOnlyListed(ts: seq<Trigger>, failing: set<nat>)
    ensures forall c :: c in KillCalls(ts, failing) ==>
              c.Kill? && exists t :: t in ts && t.hasKill && c.trigger == t.id
    decreases |ts|
  {
    if ts != [] {
      KillCallsOnlyListed(ts[1..], failing);
      forall c | c in KillCalls(ts[1..], failing)
        ensures exists t :: t in ts && t.hasKill && c.trigger == t.id
      {
        var t :| t in ts[1..] && t.hasKill && c.trigger == t.id;
        assert t in ts;
      }
    }
  }

  /** When no `kill` throws, every trigger that has a `kill` function is killed. */
  lemma {:induction false} KillCallsReachAll(ts: seq<Trigger>, failing: set<nat>)
    requires !SomeKillThrows(ts, failing)
    ensures forall t :: t in ts && t.hasKill ==> Kill(t.id) in KillCalls(ts, failing)
    decreases |ts|
  {
    if ts != [] {
      assert !SomeKillThrows(ts[1..], failing) by {
        forall i | 0 <= i < |ts[1..]| ensures !(ts[1..][i].hasKill && ts[1..][i].id in failing) {
          assert ts[1..][i] == ts[i + 1];
        }
      }
      KillCallsReachAll(ts[1..], failing);
      assert !(ts[0].hasKill && ts[0].id in failing);
      forall t | t in ts && t.hasKill ensures Kill(t.id) in KillCalls(ts, failing) {
        if t != ts[0] {
          assert t in ts[1..];
        }
      }
    }
  }

  /** The trigger iteration: calls `kill` on each trigger that has one, in order, and
      stops at the first `kill` that throws. */
  method KillTriggers(ts: seq<Trigger>, failing: set<nat>) returns (calls: seq<Call>, threw: bool)
    ensures calls == KillCalls(ts, failing)
    ensures threw == SomeKillThrows(ts, failing)
  {
    calls, threw := [], false;
    var i := 0;
    while i < |ts| && !threw
      invariant 0 <= i <= |ts|
      invariant !threw ==> calls + KillCalls(ts[i..], failing) == KillCalls(ts, failing)
      invariant threw ==> calls == KillCalls(ts, failing)
      invariant !threw ==> forall j :: 0 <= j < i ==> !(ts[j].hasKill && ts[j].id in failing)
      invariant threw ==> i >= 1 && ts[i - 1].hasKill && ts[i - 1].id in failing
    {
      var t := ts[i];
      assert ts[i..][1..] == ts[i + 1..];
      if t.hasKill {
        calls := calls + [Kill(t.id)];
        threw := t.id in failing;
      }
      i := i + 1;
    }
  }

  // ---------------------------------------------------------------------------
  // The module-level registry

  /** The four module-level slots `_locomotiveInstance`, `_gsap`, `_ScrollTrigger`
      and `_scrollReveal`. */
  class AnimationRegistry {
    var locomotive: Option<Handle>
    var gsap: Option<Handle>
    var scrollTrigger: Option<Handle>
    var scrollReveal: Option<Handle>

    function Slots(): Handles
      reads this
    {
      Handles(locomotive, gsap, scrollTrigger, scrollReveal)
    }

    /** The module is loaded with every slot `null`. */
    constructor ()
      ensures Slots() == NoHandles
    {
      locomotive, gsap, scrollTrigger, scrollReveal := None, None, None, None;
    }

    /** `initAnimations(containerSelector)`: never rejects; each library block catches
        its own errors. */
    method InitAnimations(containerSelector: Option<string>, env: InitEnv) returns (result: Handles, calls: seq<Call>)
      modifies this
      ensures Slots() == InitSlots(old(Slots()), containerSelector, env)
      ensures result == InitReport(containerSelector, env)
      ensures calls == InitCalls(containerSelector, env)
      ensures ReportsHeld(result, Slots())
    {
      var loco, locoCalls := LoadLocomotive(containerSelector, env);
      var engine, plugin, gsapCalls := LoadGsap(env);
      var revealer, revealCalls := LoadScrollReveal(env);
      result := Handles(loco, engine, plugin, revealer);
      calls := locoCalls + gsapCalls + revealCalls;
    }

    /** The Locomotive Scroll block. */
    method LoadLocomotive(containerSelector: Option<string>, env: InitEnv) returns (reported: Option<Handle>, calls: seq<Call>)
      modifies this`locomotive
      ensures locomotive == InitSlots(old(Slots()), containerSelector, env).locomotive
      ensures reported == InitReport(containerSelector, env).locomotive
      ensures calls == LocomotiveCalls(containerSelector, env)
    {
      reported, calls := None, [];
      if env.locomotiveImport {
        var el := ResolveContainer(containerSelector, env.dom);
        if el.Ok? {
          calls := [NewLocomotive(el.value, true, LocomotiveLerp)];
          if env.locomotiveNew.Ok? {
            locomotive := Some(env.locomotiveNew.value);
            reported := locomotive;
          }
        }
      }
    }

    /** The GSAP block with its nested ScrollTrigger block. Both slots hold objects
        once assigned, so the `_gsap && _ScrollTrigger` test passes whenever it is
        reached. */
    method LoadGsap(env: InitEnv) returns (engine: Option<Handle>, plugin: Option<Handle>, calls: seq<Call>)
      modifies this`gsap, this`scrollTrigger
      ensures gsap == InitSlots(old(Slots()), None, env).gsap
      ensures scrollTrigger == InitSlots(old(Slots()), None, env).scrollTrigger
      ensures engine == InitReport(None, env).gsap && plugin == InitReport(None, env).scrollTrigger
      ensures calls == GsapCalls(env)
    {
      engine, plugin, calls := None, None, [];
      if env.gsapImport.Ok? {
        gsap := Some(env.gsapImport.value);
        if env.scrollTriggerImport.Ok? {
          scrollTrigger := Some(env.scrollTriggerImport.value);
          calls := [RegisterPlugin(gsap.value, scrollTrigger.value)];
          if !env.registerPluginThrows {
            calls := calls + [SetDefaults(gsap.value, DefaultEase)];
            if !env.defaultsThrows {
              engine, plugin := gsap, scrollTrigger;
            }
          }
        }
      }
    }

    /** The ScrollReveal block. */
    method LoadScrollReveal(env: InitEnv) returns (reported: Option<Handle>, calls: seq<Call>)
      modifies this`scrollReveal
      ensures scrollReveal == InitSlots(old(Slots()), None, env).scrollReveal
      ensures reported == InitReport(None, env).scrollReveal
      ensures calls == RevealCalls(env)
    {
      reported, calls := None, [];
      if env.revealFactory.Ok? {
        scrollReveal := Some(env.revealFactory.value);
        calls := [RevealSelector(scrollReveal.value, SiteRevealSelector, SiteReveal)];
        if !env.revealThrows {
          reported := scrollReveal;
        }
      }
    }

    /** `destroyAnimations()`: never rejects; each release step catches its own errors. */
    method DestroyAnimations(env: DestroyEnv) returns (calls: seq<Call>)
      modifies this
      ensures Slots() == DestroySlots(old(Slots()), env)
      ensures calls == DestroyCalls(old(Slots()), env)
    {
      calls := [];
      if locomotive.Some? && locomotive.value.hasDestroy {
        calls := calls + [Destroy(locomotive.value)];
        if !env.locomotiveDestroyThrows {
          locomotive := None;
        }
      }
      if scrollReveal.Some? && scrollReveal.value.hasDestroy {
        calls := calls + [Destroy(scrollReveal.value)];
        if !env.revealDestroyThrows {
          scrollReveal := None;
        }
      }
      if gsap.Some? && scrollTrigger.Some? {
        if scrollTrigger.value.hasGetAll && env.getAll.Ok? {
          var kills, _ := KillTriggers(env.getAll.value, env.failingKills);
          calls := calls + kills;
        }
        gsap, scrollTrigger := None, None;
      }
    }
  }
}

=== FILE: common.dfy ===
/** Values shared by the dashboard pages and the animation wiring: optional values,
    the outcome of a call that may throw, the records the REST API returns, the
    requests the pages send and the alerts they show. */
module Common {

  /** A JavaScript value that may be `undefined` or `null`. */
  datatype Option<+T> = None | Some(value: T)

  /** The outcome of a dynamic import, a constructor or a request: it resolves to a
      value or it throws (rejects). */
  datatype Outcome<+T> = Ok(value: T) | Fail

  /** Truthiness of an optional string: `undefined`, `null` and `''` are falsy. */
  predicate Truthy(s: Option<string>)
  {
    s.Some? && s.value != ""
  }

  /** `s || fallback` for an optional string. */
  function OrElse(s: Option<string>, fallback: string): (r: string)
    ensures Truthy(s) ==> r == s.value
    ensures !Truthy(s) ==> r == fallback
  {
    if Truthy(s) then s.value else fallback
  }

  /** A division of the organisation, as the API returns it. */
  datatype Division = Division(id: int, name: string)

  /** A request sent through the API client; `B` is the type of a PUT body. */
  datatype Request<B> = Get(path: string) | Put(path: string, body: B) | Delete(path: string)

  datatype Icon = SuccessIcon | ErrorIcon | WarningIcon

  /** A SweetAlert dialog: icon, title and text. */
  datatype Alert = Alert(icon: Icon, title: string, text: string)

  /** A value of a validation-error entry: a list of messages or a single message. */
  datatype ErrorValue = Messages(texts: seq<string>) | Message(text: string)

  /** `response.data` of a failed request. */
  datatype ErrorData = ErrorData(errors: Option<seq<(string, ErrorValue)>>, message: Option<string>)

  /** A thrown request error: `error.response?.data` and `error.message`. */
  datatype HttpError = HttpError(data: Option<ErrorData>, message: Option<string>)

  /** The outcome of a PUT or DELETE whose response body the page ignores. */
  datatype Sent = Sent | Rejected(error: HttpError)

  // ---------------------------------------------------------------------------
  // Third-party animation libraries, seen only through their handles.

  type ElementId = nat

  /** An opaque library object: a Locomotive instance, the GSAP engine, the
      ScrollTrigger plugin or a ScrollReveal instance. The flags say whether it has a
      `destroy` function and (for the plugin) a `getAll` function. */
  datatype Handle = Handle(id: nat, hasDestroy: bool, hasGetAll: bool)

  /** A live ScrollTrigger instance, with or without a `kill` function. */
  datatype Trigger = Trigger(id: nat, hasKill: bool)

  /** Options passed to `reveal('.sr', ...)` by the bootstrap. */
  datatype SiteRevealOptions = SiteRevealOptions(
    distance: string, origin: string, duration: nat, interval: nat,
    scale: nat, opacity: nat, easing: string)

  /** Options passed to `reveal(node, ...)` by one reveal wrapper. */
  datatype NodeRevealOptions = NodeRevealOptions(
    origin: string, distance: string, duration: nat, delay: nat, easing: string)

  /** A call made into a library, in the order the code makes it. */
  datatype Call =
    | NewLocomotive(el: ElementId, smooth: bool, lerp: real)
    | RegisterPlugin(engine: Handle, plugin: Handle)
    | SetDefaults(engine: Handle, ease: string)
    | RevealSelector(instance: Handle, selector: string, site: SiteRevealOptions)
    | RevealNode(instance: Handle, node: NodeRevealOptions)
    | Destroy(instance: Handle)
    | Kill(trigger: nat)
}

=== FILE: edit_divisions_modal.dfy ===
/** The state logic of `resources/js/components/dashboard/EditDivisionsModal.tsx`: the
    selection is loaded from the proker's current divisions whenever the modal opens,
    edited with the shared toggle, and saved with a PUT that carries only the
    selected division ids. */
module DivisionsModal {
  import opened Common
  import Text
  import Selection

  /** `d && d.id`: an entry counts when it is present and its id is not 0. */
  predicate Counts(entry: Option<Division>)
  {
    entry.Some? && entry.value.id != 0
  }

  /** `currentDivisions.filter(d => d && d.id).map(d => d.id)`. */
  function TruthyIds(current: seq<Option<Division>>): (r: seq<int>)
    ensures |r| <= |current|
    ensures 0 !in r
    ensures forall x :: x in r <==> exists i :: 0 <= i < |current| && Counts(current[i]) && current[i].value.id == x
    decreases |current|
  {
    if current == [] then []
    else
      var rest := TruthyIds(current[1..]);
      assert forall i :: 0 < i < |current| ==> current[i] == current[1..][i - 1];
      if Counts(current[0]) then [current[0].value.id] + rest else rest
  }

  /** The ids keep the order of their entries: the filter distributes over concatenation. */
  lemma {:induction false} TruthyIdsConcat(a: seq<Option<Division>>, b: seq<Option<Division>>)
    ensures TruthyIds(a + b) == TruthyIds(a) + TruthyIds(b)
    decreases |a|
  {
    if a == [] {
      assert a + b == b;
    } else {
      assert (a + b)[0] == a[0] && (a + b)[1..] == a[1..] + b;
      TruthyIdsConcat(a[1..], b);
    }
  }

  /** A single entry contributes its id exactly when it counts. */
  lemma TruthyIdsOfOne(entry: Option<Division>)
    ensures TruthyIds([entry]) == (if Counts(entry) then [entry.value.id] else [])
  {
    assert [entry][1..] == [];
  }

  /** The selection the effect sets on open; `current` is `None` when the prop is missing. */
  function OpenSelection(current: Option<seq<Option<Division>>>): (r: seq<int>)
    ensures current.None? || current.value == [] ==> r == []
    ensures current.Some? ==> r == TruthyIds(current.value)
  {
    if current.Some? && |current.value| > 0 then TruthyIds(current.value) else []
  }

  /** The PUT body: an object whose only key is `division_ids`. */
  datatype DivisionsBody = DivisionsBody(division_ids: seq<int>)

  /** The parent's callbacks, in the order the success alert's `.then` calls them. */
  datatype Callback = OnSuccess | OnClose

  const DefaultErrorMessage := "Terjadi kesalahan saat memperbarui divisi"
  const EmptySelectionAlert := Alert(WarningIcon, "Peringatan!", "Pilih minimal 1 divisi")
  const SavedAlert := Alert(SuccessIcon, "Berhasil!", "Divisi berhasil diperbarui")

  /** The failure text: the server's message, else the error's own message, else the
      default; an empty string counts as missing. */
  function ErrorMessage(e: HttpError): (m: string)
    ensures e.data.Some? && Truthy(e.data.value.message) ==> m == e.data.value.message.value
    ensures !(e.data.Some? && Truthy(e.data.value.message)) && Truthy(e.message) ==> m == e.message.value
    ensures !(e.data.Some? && Truthy(e.data.value.message)) && !Truthy(e.message) ==> m == DefaultErrorMessage
    ensures m != ""
  {
    var serverMessage := if e.data.Some? then e.data.value.message else None;
    OrElse(serverMessage, OrElse(e.message, DefaultErrorMessage))
  }

  /** What the open modal shows of its state. */
  datatype View = View(submitDisabled: bool, cancelDisabled: bool, submitCaption: string)

  class ModalState {
    const prokerId: int
    var selected: seq<int>
    var loading: bool

    constructor (prokerId: int)
      ensures this.prokerId == prokerId && selected == [] && !loading
    {
      this.prokerId := prokerId;
      selected, loading := [], false;
    }

    /** The rendering: nothing while closed; the submit button is disabled while saving
        or while the selection is empty. */
    function Render(isOpen: bool): (v: Option<View>)
      reads this
      ensures v.None? <==> !isOpen
      ensures v.Some? ==> (v.value.submitDisabled <==> loading || selected == [])
      ensures v.Some? ==> (v.value.cancelDisabled <==> loading)
      ensures v.Some? ==> v.value.submitCaption == (if loading then "Menyimpan..." else "Simpan")
    {
      if !isOpen then None
      else Some(View(loading || |selected| == 0, loading, if loading then "Menyimpan..." else "Simpan"))
    }

    /** The effect on `[isOpen, currentDivisions]`: reload the selection on open; while
        closed the selection is left as it is. */
    method SyncOnOpen(isOpen: bool, current: Option<seq<Option<Division>>>)
      modifies this
      ensures isOpen ==> selected == OpenSelection(current)
      ensures !isOpen ==> selected == old(selected)
      ensures loading == old(loading)
    {
      if isOpen && current.Some? && |current.value| > 0 {
        selected := TruthyIds(current.value);
      } else if isOpen {
        selected := [];
      }
    }

    /** `handleDivisionToggle(divisionId)`. */
    method ToggleDivision(divisionId: int)
      modifies this
      ensures selected == Selection.Toggle(old(selected), divisionId)
      ensures loading == old(loading)
    {
      selected := Selection.Toggle(selected, divisionId);
    }

    /** `handleSubmit`: an empty selection is refused with a warning and no request;
        otherwise the selection is sent and the outcome reported. `loading` ends false
        on every path, and the selection is never changed. */
    method Submit(outcome: Sent) returns (request: Option<Request<DivisionsBody>>, alert: Alert, callbacks: seq<Callback>)
      modifies this
      ensures !loading
      ensures selected == old(selected)
      ensures old(selected) == [] ==> request == None && alert == EmptySelectionAlert && callbacks == []
      ensures old(selected) != [] ==>
                request == Some(Put("/prokers/" + Text.IntToString(prokerId), DivisionsBody(old(selected))))
      ensures old(selected) != [] && outcome.Sent? ==> alert == SavedAlert && callbacks == [OnSuccess, OnClose]
      ensures old(selected) != [] && outcome.Rejected? ==>
                alert == Alert(ErrorIcon, "Gagal!", ErrorMessage(outcome.error)) && callbacks == []
    {
      loading := true;
      request, callbacks := None, [];
      if |selected| == 0 {
        alert := EmptySelectionAlert;
        loading := false;
        return;
      }
      request := Some(Put("/prokers/" + Text.IntToString(prokerId), DivisionsBody(selected)));
      match outcome {
        case Sent =>
          alert := SavedAlert;
          callbacks := [OnSuccess, OnClose];
        case Rejected(e) =>
          alert := Alert(ErrorIcon, "Gagal!", ErrorMessage(e));
      }
      loading := false;
    }
  }

  /** Opening on a list whose only entries lack an id, or have id 0, selects nothing, so
      the submit button starts disabled. */
  lemma {:induction false} OpenWithoutIdsSelectsNothing(current: seq<Option<Division>>)
    requires forall i :: 0 <= i < |current| ==> !Counts(current[i])
    ensures TruthyIds(current) == []
    ensures OpenSelection(Some(current)) == []
    decreases |current|
  {
    if current != [] {
      assert !Counts(current[0]);
      OpenWithoutIdsSelectsNothing(current[1..]);
    }
  }
}

=== FILE: proker_detail_page.dfy ===
/** The state logic of `resources/js/pages/dashboard/ProkerDetailPage.tsx`: the proker id
    is the last path segment; the proker, the positions and the divisions are fetched
    together and the two lists are unwrapped from their response bodies; committee
    members are grouped by division and the groups listed in the engine's key order;
    a member is deleted after confirmation and the proker fetched again. */
module DetailPage {
  import opened Common
  import Text
  import Selection
  import PropertyOrder
  import EditPage

  // ---------------------------------------------------------------------------
  // Records

  datatype Position = Position(id: int, name: string)

  /** A committee member (`ProkerAnggota`) with the user's display name. */
  datatype Member = Member(
    id: int, userName: string, divisionId: int, division: Option<Division>,
    position: Option<Position>, role: Option<string>)

  /** The proker as the detail endpoint returns it. */
  datatype DetailRecord = DetailRecord(
    id: int, title: string, description: Option<string>, date: string,
    location: Option<string>, status: string, divisions: seq<Division>, anggota: seq<Member>)

  // ---------------------------------------------------------------------------
  // Response bodies

  /** A parsed JSON response body. */
  datatype Json =
    | JNull
    | JBool(b: bool)
    | JNumber(n: int)
    | JString(s: string)
    | JArray(items: seq<Json>)
    | JObject(fields: seq<(string, Json)>)

  /** JavaScript truthiness of a JSON value. */
  predicate JsTruthy(j: Json)
  {
    match j
    case JNull => false
    case JBool(b) => b
    case JNumber(n) => n != 0
    case JString(s) => s != ""
    case JArray(_) => true
    case JObject(_) => true
  }

  /** A member of a parsed object; when a key repeats, the last one wins. */
  function Lookup(fields: seq<(string, Json)>, key: string): (r: Option<Json>)
    ensures r.None? <==> forall i :: 0 <= i < |fields| ==> fields[i].0 != key
    ensures r.Some? ==> exists i :: 0 <= i < |fields| && fields[i] == (key, r.value)
                           && forall j :: i < j < |fields| ==> fields[j].0 != key
    decreases |fields|
  {
    if fields == [] then None
    else if fields[|fields| - 1].0 == key then Some(fields[|fields| - 1].1)
    else
      var init := fields[..|fields| - 1];
      var r := Lookup(init, key);
      assert forall i :: 0 <= i < |init| ==> init[i] == fields[i];
      assert r.None? <==> forall i :: 0 <= i < |fields| ==> fields[i].0 != key;
      assert r.Some? ==> exists i :: 0 <= i < |fields| && fields[i] == (key, r.value)
                           && forall j :: i < j < |fields| ==> fields[j].0 != key by {
        if r.Some? {
          var i :| 0 <= i < |init| && init[i] == (key, r.value) && forall j :: i < j < |init| ==> init[j].0 != key;
          assert fields[i] == (key, r.value);
        }
      }
      r
  }

  /** `body.data`: throws on `null`, undefined on anything but an object with that key. */
  function DataOf(body: Json): (r: Outcome<Option<Json>>)
    ensures r.Fail? <==> body.JNull?
    ensures body.JObject? ==> r == Ok(Lookup(body.fields, "data"))
    ensures !body.JObject? && !body.JNull? ==> r == Ok(None)
  {
    match body
    case JNull => Fail
    case JObject(fields) => Ok(Lookup(fields, "data"))
    case _ => Ok(None)
  }

  /** `value || []`. */
  function OrEmpty(value: Option<Json>): (r: Json)
    ensures value.Some? && JsTruthy(value.value) ==> r == value.value
    ensures !(value.Some? && JsTruthy(value.value)) ==> r == JArray([])
  {
    if value.Some? && JsTruthy(value.value) then value.value else JArray([])
  }

  /** `positionsRes.data.data || []`. */
  function NormalisePositions(body: Json): (r: Outcome<Json>)
    ensures r.Fail? <==> body.JNull?
    ensures r.Ok? ==> JsTruthy(r.value)
    ensures body.JObject? ==> r == Ok(OrEmpty(Lookup(body.fields, "data")))
    ensures !body.JObject? && !body.JNull? ==> r == Ok(JArray([]))
  {
    match DataOf(body)
    case Fail => Fail
    case Ok(data) => Ok(OrEmpty(data))
  }

  /** `Array.isArray(body) ? body : (body.data || [])`. */
  function NormaliseDivisions(body: Json): (r: Outcome<Json>)
    ensures body.JArray? ==> r == Ok(body)
    ensures !body.JArray? ==> r == NormalisePositions(body)
  {
    if body.JArray? then Ok(body) else NormalisePositions(body)
  }

  /** Both endpoints' wrapped form `{ data: [...] }` unwraps to the list; the divisions
      endpoint also takes a bare list, while a bare list from the positions endpoint
      becomes `[]`. A `null` body makes both throw. */
  lemma NormalisationForms(items: seq<Json>, other: seq<(string, Json)>)
    requires forall i :: 0 <= i < |other| ==> other[i].0 != "data"
    ensures NormalisePositions(JObject(other + [("data", JArray(items))])) == Ok(JArray(items))
    ensures NormaliseDivisions(JObject(other + [("data", JArray(items))])) == Ok(JArray(items))
    ensures NormaliseDivisions(JArray(items)) == Ok(JArray(items))
    ensures NormalisePositions(JArray(items)) == Ok(JArray([]))
    ensures NormalisePositions(JObject(other)) == Ok(JArray([]))
    ensures NormalisePositions(JNull).Fail? && NormaliseDivisions(JNull).Fail?
  {
  }

  // ---------------------------------------------------------------------------
  // Grouping members by division

  /** The `division_id`s in the order they are first seen. */
  function Keys(ms: seq<Member>): (r: seq<int>)
    ensures Selection.Distinct(r)
    ensures forall d :: d in r <==> exists i :: 0 <= i < |ms| && ms[i].divisionId == d
    ensures |r| <= |ms|
    decreases |ms|
  {
    if ms == [] then []
    else
      var init := ms[..|ms| - 1];
      var k := Keys(init);
      assert forall i :: 0 <= i < |init| ==> init[i] == ms[i];
      var d := ms[|ms| - 1].divisionId;
      if d in k then k
      else
        assert forall i :: 0 <= i < |k| ==> k[i] != d;
        k + [d]
  }

  /** The members of one division, in their original order. */
  function MembersOf(ms: seq<Member>, d: int): (r: seq<Member>)
    ensures forall m :: m in r <==> m in ms && m.divisionId == d
    ensures |r| <= |ms|
    decreases |ms|
  {
    if ms == [] then []
    else
      var init := ms[..|ms| - 1];
      var m := ms[|ms| - 1];
      assert ms == init + [m];
      MembersOf(init, d) + (if m.divisionId == d then [m] else [])
  }

  /** Extending the members by one adds its key if it is new. */
  lemma KeysStep(ms: seq<Member>, i: int)
    requires 0 <= i < |ms|
    ensures Keys(ms[..i + 1]) == if ms[i].divisionId in Keys(ms[..i]) then Keys(ms[..i]) else Keys(ms[..i]) + [ms[i].divisionId]
  {
    var p := ms[..i + 1];
    assert p[..|p| - 1] == ms[..i];
    assert p[|p| - 1] == ms[i];
  }

  /** Extending the members by one extends that member's division only. */
  lemma GroupingStep(ms: seq<Member>, i: int)
    requires 0 <= i < |ms|
    ensures Keys(ms[..i + 1]) == if ms[i].divisionId in Keys(ms[..i]) then Keys(ms[..i]) else Keys(ms[..i]) + [ms[i].divisionId]
    ensures forall d :: MembersOf(ms[..i + 1], d) == MembersOf(ms[..i], d) + (if ms[i].divisionId == d then [ms[i]] else [])
  {
    KeysStep(ms, i);
    var p := ms[..i + 1];
    assert p[..|p| - 1] == ms[..i];
    assert p[|p| - 1] == ms[i];
  }

  /** `div` is the division of the first of the first `n` members whose id is `d`. */
  ghost predicate FirstDivisionIs(ms: seq<Member>, n: int, d: int, div: Option<Division>)
    requires 0 <= n <= |ms|
  {
    exists k :: 0 <= k < n && ms[k].divisionId == d && ms[k].division == div
                && forall j :: 0 <= j < k ==> ms[j].divisionId != d
  }

  /** One group of the accumulator: the division object and its members. */
  datatype Group = Group(division: Option<Division>, members: seq<Member>)

  /** The accumulator after the first `n` members: a group per key seen, in `order`,
      holding that key's members and the first such member's division. */
  ghost predicate Grouped(ms: seq<Member>, n: int, groups: map<int, Group>, order: seq<int>)
    requires 0 <= n <= |ms|
  {
    && order == Keys(ms[..n])
    && (forall d :: d in groups <==> d in order)
    && (forall d :: d in groups ==> groups[d].members == MembersOf(ms[..n], d))
    && (forall d :: d in groups ==> FirstDivisionIs(ms, n, d, groups[d].division))
  }

  /** One step of the `reduce`. */
  function AddMember(groups: map<int, Group>, m: Member): map<int, Group>
  {
    var g := if m.divisionId in groups then groups[m.divisionId] else Group(m.division, []);
    groups[m.divisionId := g.(members := g.members + [m])]
  }

  /** A key not yet in the accumulator has no member before position `i`. */
  lemma NewKeyUnseen(ms: seq<Member>, i: int, order: seq<int>)
    requires 0 <= i < |ms|
    requires order == Keys(ms[..i]) && ms[i].divisionId !in order
    ensures forall j :: 0 <= j < i ==> ms[j].divisionId != ms[i].divisionId
    ensures MembersOf(ms[..i], ms[i].divisionId) == []
  {
    forall j | 0 <= j < i ensures ms[j].divisionId != ms[i].divisionId {
      assert ms[..i][j] == ms[j];
    }
    MembersOfAbsent(ms[..i], ms[i].divisionId);
  }

  lemma AddMemberKeepsFirstDivision(ms: seq<Member>, i: int, groups: map<int, Group>, order: seq<int>)
    requires 0 <= i < |ms|
    requires forall d :: d in groups <==> d in order
    requires order == Keys(ms[..i])
    requires forall d :: d in groups ==> FirstDivisionIs(ms, i, d, groups[d].division)
    ensures forall d :: d in AddMember(groups, ms[i]) ==> FirstDivisionIs(ms, i + 1, d, AddMember(groups, ms[i])[d].division)
  {
    var m := ms[i];
    var next := AddMember(groups, m);
    if m.divisionId !in groups {
      NewKeyUnseen(ms, i, order);
      assert FirstDivisionIs(ms, i + 1, m.divisionId, m.division);
    }
    forall d | d in next ensures FirstDivisionIs(ms, i + 1, d, next[d].division) {
      if d in groups {
        assert FirstDivisionIs(ms, i, d, groups[d].division);
      }
    }
  }

  lemma AddMemberKeepsMembers(ms: seq<Member>, i: int, groups: map<int, Group>, order: seq<int>)
    requires 0 <= i < |ms|
    requires forall d :: d in groups <==> d in order
    requires order == Keys(ms[..i])
    requires forall d :: d in groups ==> groups[d].members == MembersOf(ms[..i], d)
    ensures forall d :: d in AddMember(groups, ms[i]) ==> AddMember(groups, ms[i])[d].members == MembersOf(ms[..i + 1], d)
  {
    var m := ms[i];
    var next := AddMember(groups, m);
    GroupingStep(ms, i);
    if m.divisionId !in groups {
      NewKeyUnseen(ms, i, order);
    }
    forall d | d in next ensures next[d].members == MembersOf(ms[..i + 1], d) {
      if d != m.divisionId {
        assert next[d] == groups[d];
      } else if d in groups {
        assert next[d].members == MembersOf(ms[..i], d) + [m];
      } else {
        assert next[d].members == [m];
      }
    }
  }

  lemma AddMemberKeepsGrouped(ms: seq<Member>, i: int, groups: map<int, Group>, order: seq<int>)
    requires 0 <= i < |ms|
    requires Grouped(ms, i, groups, order)
    ensures Grouped(ms, i + 1, AddMember(groups, ms[i]),
                    if ms[i].divisionId in groups then order else order + [ms[i].divisionId])
  {
    GroupingStep(ms, i);
    AddMemberKeepsFirstDivision(ms, i, groups, order);
    AddMemberKeepsMembers(ms, i, groups, order);
  }

  /** The accumulator the `reduce` builds, one member at a time. */
  function Grouping(ms: seq<Member>): map<int, Group>
    decreases |ms|
  {
    if ms == [] then map[] else AddMember(Grouping(ms[..|ms| - 1]), ms[|ms| - 1])
  }

  lemma GroupingPrefix(ms: seq<Member>, i: int)
    requires 0 <= i < |ms|
    ensures Grouping(ms[..i + 1]) == AddMember(Grouping(ms[..i]), ms[i])
  {
    var p := ms[..i + 1];
    assert p[..|p| - 1] == ms[..i];
  }

  /** The accumulator has exactly the keys seen. */
  lemma {:induction false} GroupingKeys(ms: seq<Member>)
    ensures forall d :: d in Grouping(ms) <==> d in Keys(ms)
    decreases |ms|
  {
    if ms != [] {
      var init := ms[..|ms| - 1];
      GroupingKeys(init);
      assert forall i :: 0 <= i < |init| ==> init[i] == ms[i];
    }
  }

  lemma {:induction false} GroupingPrefixGrouped(ms: seq<Member>, n: int)
    requires 0 <= n <= |ms|
    ensures Grouped(ms, n, Grouping(ms[..n]), Keys(ms[..n]))
    decreases n
  {
    if n == 0 {
      assert ms[..0] == [];
    } else {
      var i := n - 1;
      GroupingPrefixGrouped(ms, i);
      AddMemberKeepsGrouped(ms, i, Grouping(ms[..i]), Keys(ms[..i]));
      GroupingPrefix(ms, i);
      GroupingStep(ms, i);
    }
  }

  /** What the accumulator holds: one group per `division_id` (keyed in first-seen
      order), holding that division's members in their original order and the division
      object of the first member seen with that id. */
  lemma GroupingMeaning(ms: seq<Member>)
    ensures forall d :: d in Grouping(ms) <==> d in Keys(ms)
    ensures forall d :: d in Grouping(ms) ==> Grouping(ms)[d].members == MembersOf(ms, d)
    ensures forall d :: d in Grouping(ms) ==> FirstDivisionIs(ms, |ms|, d, Grouping(ms)[d].division)
  {
    GroupingPrefixGrouped(ms, |ms|);
    assert ms[..|ms|] == ms;
  }

  /** The grouping `reduce`: the accumulator gets a group the first time a `division_id`
      is seen, holding that member's division, and every member is pushed onto the
      group of its own `division_id`. `order` is the accumulator's key insertion order. */
  method GroupByDivision(ms: seq<Member>) returns (groups: map<int, Group>, order: seq<int>)
    ensures groups == Grouping(ms)
    ensures order == Keys(ms)
  {
    groups, order := map[], [];
    var i := 0;
    assert ms[..0] == [];
    while i < |ms|
      invariant 0 <= i <= |ms|
      invariant groups == Grouping(ms[..i])
      invariant order == Keys(ms[..i])
    {
      var m := ms[i];
      GroupingPrefix(ms, i);
      KeysStep(ms, i);
      GroupingKeys(ms[..i]);
      // the group is created on first sight of its id, then the member is pushed onto it
      var g := if m.divisionId in groups then groups[m.divisionId] else Group(m.division, []);
      if m.divisionId !in groups {
        order := order + [m.divisionId];
      }
      groups := groups[m.divisionId := g.(members := g.members + [m])];
      i := i + 1;
    }
    assert ms[..|ms|] == ms;
  }

  /** How many times `x` occurs in `keys`. */
  function Count(keys: seq<int>, x: int): nat
    decreases |keys|
  {
    if keys == [] then 0 else (if keys[0] == x then 1 else 0) + Count(keys[1..], x)
  }

  lemma {:induction false} CountDistinct(keys: seq<int>, x: int)
    requires Selection.Distinct(keys)
    ensures Count(keys, x) == if x in keys then 1 else 0
    decreases |keys|
  {
    if keys != [] {
      assert Selection.Distinct(keys[1..]);
      CountDistinct(keys[1..], x);
      if keys[0] == x {
        assert x !in keys[1..];
      }
    }
  }

  /** The number of members over the groups of `keys`. */
  function Total(ms: seq<Member>, keys: seq<int>): nat
    decreases |keys|
  {
    if keys == [] then 0 else |MembersOf(ms, keys[0])| + Total(ms, keys[1..])
  }

  lemma {:induction false} TotalConcat(ms: seq<Member>, a: seq<int>, b: seq<int>)
    ensures Total(ms, a + b) == Total(ms, a) + Total(ms, b)
    decreases |a|
  {
    if a == [] {
      assert a + b == b;
    } else {
      assert (a + b)[0] == a[0] && (a + b)[1..] == a[1..] + b;
      TotalConcat(ms, a[1..], b);
    }
  }

  lemma {:induction false} TotalAppend(ms: seq<Member>, m: Member, keys: seq<int>)
    ensures Total(ms + [m], keys) == Total(ms, keys) + Count(keys, m.divisionId)
    decreases |keys|
  {
    if keys != [] {
      var extended := ms + [m];
      assert extended[..|extended| - 1] == ms;
      assert MembersOf(extended, keys[0]) == MembersOf(ms, keys[0]) + (if m.divisionId == keys[0] then [m] else []);
      TotalAppend(ms, m, keys[1..]);
    }
  }

  lemma {:induction false} MembersOfAbsent(ms: seq<Member>, d: int)
    requires d !in Keys(ms)
    ensures MembersOf(ms, d) == []
    decreases |ms|
  {
    if ms != [] {
      var init := ms[..|ms| - 1];
      assert forall i :: 0 <= i < |init| ==> init[i] == ms[i];
      assert d !in Keys(init);
      MembersOfAbsent(init, d);
    }
  }

  /** The groups partition the members: every member is in the group of its own
      `division_id` and in no other, so the group sizes add up to the member count. */
  lemma {:induction false} GroupsPartitionMembers(ms: seq<Member>)
    ensures Total(ms, Keys(ms)) == |ms|
    ensures forall i :: 0 <= i < |ms| ==> ms[i] in MembersOf(ms, ms[i].divisionId)
    ensures forall d, m :: m in MembersOf(ms, d) ==> m.divisionId == d
    decreases |ms|
  {
    if ms != [] {
      var init := ms[..|ms| - 1];
      var m := ms[|ms| - 1];
      assert ms == init + [m];
      var k := Keys(init);
      GroupsPartitionMembers(init);
      TotalAppend(init, m, k);
      CountDistinct(k, m.divisionId);
      if m.divisionId !in k {
        assert Keys(ms) == k + [m.divisionId];
        TotalConcat(ms, k, [m.divisionId]);
        MembersOfAbsent(init, m.divisionId);
        assert MembersOf(ms, m.divisionId) == [m];
        assert Total(ms, [m.divisionId]) == 1;
      }
    }
  }

  /** A duplicate-free list has as many elements as its set. */
  lemma {:induction false} DistinctCardinality(keys: seq<int>)
    requires Selection.Distinct(keys)
    ensures |set x | x in keys| == |keys|
    decreases |keys|
  {
    if keys != [] {
      var rest := keys[1..];
      assert Selection.Distinct(rest);
      DistinctCardinality(rest);
      assert keys[0] !in rest;
      assert (set x | x in keys) == (set x | x in rest) + {keys[0]};
    }
  }

  /** There are as many groups as distinct `division_id`s, and the per-division section
      (shown when the accumulator has a key) appears exactly when there are members. */
  lemma GroupCount(ms: seq<Member>)
    ensures |Keys(ms)| == |set i | 0 <= i < |ms| :: ms[i].divisionId|
    ensures |Keys(ms)| > 0 <==> |ms| > 0
  {
    var k := Keys(ms);
    DistinctCardinality(k);
    assert (set x | x in k) == (set i | 0 <= i < |ms| :: ms[i].divisionId);
    if |ms| > 0 {
      assert ms[0].divisionId in k;
    }
  }

  // ---------------------------------------------------------------------------
  // `Object.values` order

  /** A numeric property key is an array index when it lies in [0, 2^32 - 1). */
  predicate IsIndexKey(k: int)
  {
    0 <= k < 0xFFFF_FFFF
  }

  /** The numeric value an array-index key is ordered by. */
  function Rank(k: int): int
  {
    k
  }

  /** The order `Object.values` lists the accumulator's groups in: array-index keys
      ascending, then the remaining keys in insertion order. */
  function EnumerationOrder(insertion: seq<int>): seq<int>
  {
    PropertyOrder.EnumerationOrder(insertion, IsIndexKey, Rank)
  }

  /** `Object.values(anggotaByDivision)`. */
  function ListedGroups(groups: map<int, Group>, keys: seq<int>): (r: seq<Group>)
    requires forall i :: 0 <= i < |keys| ==> keys[i] in groups
    ensures |r| == |keys|
    ensures forall i :: 0 <= i < |keys| ==> r[i] == groups[keys[i]]
    decreases |keys|
  {
    if keys == [] then [] else [groups[keys[0]]] + ListedGroups(groups, keys[1..])
  }

  /** Every key `Object.values` enumerates is a key of the accumulator. */
  lemma ListedKeysGrouped(ms: seq<Member>)
    ensures forall i :: 0 <= i < |EnumerationOrder(Keys(ms))| ==> EnumerationOrder(Keys(ms))[i] in Grouping(ms)
  {
    var listed := EnumerationOrder(Keys(ms));
    PropertyOrder.EnumerationIsPermutation(Keys(ms), IsIndexKey, Rank);
    GroupingKeys(ms);
    forall i | 0 <= i < |listed| ensures listed[i] in Grouping(ms) {
      assert listed[i] in listed;
    }
  }

  /** The groups the page renders: `Object.values` of the accumulator the `reduce` builds. */
  function Listing(ms: seq<Member>): seq<Group>
  {
    ListedKeysGrouped(ms);
    ListedGroups(Grouping(ms), EnumerationOrder(Keys(ms)))
  }

  /** The page lists one group per `division_id`, each exactly once: the group of the
      i-th listed id holds exactly that division's members, in their original order,
      with the division object of the first of them. */
  lemma ListingMeaning(ms: seq<Member>)
    ensures multiset(EnumerationOrder(Keys(ms))) == multiset(Keys(ms))
    ensures Selection.Distinct(EnumerationOrder(Keys(ms)))
    ensures |Listing(ms)| == |Keys(ms)|
    ensures forall i :: 0 <= i < |Listing(ms)| ==>
              Listing(ms)[i].members == MembersOf(ms, EnumerationOrder(Keys(ms))[i])
              && FirstDivisionIs(ms, |ms|, EnumerationOrder(Keys(ms))[i], Listing(ms)[i].division)
  {
    var listed := EnumerationOrder(Keys(ms));
    PropertyOrder.EnumerationIsPermutation(Keys(ms), IsIndexKey, Rank);
    ListedKeysGrouped(ms);
    var groups := Grouping(ms);
    var r := ListedGroups(groups, listed);
    assert Listing(ms) == r;
    GroupingMeaning(ms);
    forall i | 0 <= i < |r|
      ensures r[i].members == MembersOf(ms, listed[i]) && FirstDivisionIs(ms, |ms|, listed[i], r[i].division)
    {
      assert r[i] == groups[listed[i]];
    }
  }

  /** With ids in [0, 2^32 - 1) (array-index keys, as the API assigns) the page lists the
      groups by ascending `division_id`, whatever order the members came in. */
  lemma ListingByAscendingId(ms: seq<Member>)
    requires forall i :: 0 <= i < |ms| ==> IsIndexKey(ms[i].divisionId)
    ensures PropertyOrder.SortedBy(EnumerationOrder(Keys(ms)), Rank)
    ensures forall i, j :: 0 <= i < j < |Listing(ms)| ==> EnumerationOrder(Keys(ms))[i] < EnumerationOrder(Keys(ms))[j]
  {
    var keys := Keys(ms);
    forall i | 0 <= i < |keys| ensures IsIndexKey(keys[i]) {
      assert keys[i] in keys;
    }
    PropertyOrder.OnlyIndexKeysAscending(keys, IsIndexKey, Rank);
    ListingMeaning(ms);
  }

  /** No earlier member shares the `division_id` of member `k`: its group takes member
      `k`'s division. */
  predicate FirstOfDivision(ms: seq<Member>, k: int)
    requires 0 <= k < |ms|
  {
    forall j :: 0 <= j < k ==> ms[j].divisionId != ms[k].divisionId
  }

  /** The headings of the grouped view, `key={division.id}` and `{division.name}` for each
      listed group; the render throws a TypeError at a group without a division. */
  function GroupHeadings(groups: seq<Group>): (r: Outcome<seq<Division>>)
    ensures r.Ok? <==> forall i :: 0 <= i < |groups| ==> groups[i].division.Some?
    ensures r.Ok? ==> |r.value| == |groups| && forall i :: 0 <= i < |groups| ==> r.value[i] == groups[i].division.value
    decreases |groups|
  {
    if groups == [] then Ok([])
    else if groups[0].division.None? then Fail
    else
      match GroupHeadings(groups[1..])
      case Ok(rest) => Ok([groups[0].division.value] + rest)
      case Fail => Fail
  }

  /** Each listed group's division is that of the first member of its division. */
  lemma ListedDivisionOfFirst(ms: seq<Member>, i: int)
    requires 0 <= i < |Listing(ms)|
    ensures exists k :: 0 <= k < |ms| && FirstOfDivision(ms, k) && ms[k].division == Listing(ms)[i].division
  {
    var listed := EnumerationOrder(Keys(ms));
    ListingMeaning(ms);
    assert FirstDivisionIs(ms, |ms|, listed[i], Listing(ms)[i].division);
    var k :| 0 <= k < |ms| && ms[k].divisionId == listed[i] && ms[k].division == Listing(ms)[i].division
             && forall j :: 0 <= j < k ==> ms[j].divisionId != listed[i];
    assert FirstOfDivision(ms, k);
  }

  /** The first member of each division gives its division to a listed group. */
  lemma FirstDivisionListed(ms: seq<Member>, k: int)
    requires 0 <= k < |ms| && FirstOfDivision(ms, k)
    ensures exists i :: 0 <= i < |Listing(ms)| && Listing(ms)[i].division == ms[k].division
  {
    var listed := EnumerationOrder(Keys(ms));
    var groups := Listing(ms);
    ListingMeaning(ms);
    var d := ms[k].divisionId;
    assert d in Keys(ms);
    assert d in multiset(listed);
    var i :| 0 <= i < |listed| && listed[i] == d;
    assert FirstDivisionIs(ms, |ms|, d, groups[i].division);
    var k' :| 0 <= k' < |ms| && ms[k'].divisionId == d && ms[k'].division == groups[i].division
              && forall j :: 0 <= j < k' ==> ms[j].divisionId != d;
    assert k' == k;
  }

  /** The grouped view renders exactly when the first member of every division carries a
      division object; otherwise reading `division.id` throws. */
  lemma GroupedViewRenders(ms: seq<Member>)
    ensures GroupHeadings(Listing(ms)).Ok? <==>
              forall k :: 0 <= k < |ms| && FirstOfDivision(ms, k) ==> ms[k].division.Some?
  {
    var groups := Listing(ms);
    if forall k :: 0 <= k < |ms| && FirstOfDivision(ms, k) ==> ms[k].division.Some? {
      forall i | 0 <= i < |groups| ensures groups[i].division.Some? {
        ListedDivisionOfFirst(ms, i);
      }
    }
    if forall i :: 0 <= i < |groups| ==> groups[i].division.Some? {
      forall k | 0 <= k < |ms| && FirstOfDivision(ms, k) ensures ms[k].division.Some? {
        FirstDivisionListed(ms, k);
      }
    }
  }

  /** A committee whose first member has no division cannot be shown grouped. */
  lemma FirstMemberWithoutDivisionThrows(ms: seq<Member>)
    requires |ms| >= 1 && ms[0].division.None?
    ensures GroupHeadings(Listing(ms)) == Fail
  {
    var r := GroupHeadings(Listing(ms));
    GroupedViewRenders(ms);
    assert FirstOfDivision(ms, 0) && ms[0].division.None?;
    assert !r.Ok?;
  }

  // ---------------------------------------------------------------------------
  // Display values

  /** `value || '-'`. */
  function Cell(value: Option<string>): (r: string)
    ensures r != ""
    ensures Truthy(value) ==> r == value.value
    ensures !Truthy(value) ==> r == "-"
  {
    OrElse(value, "-")
  }

  /** The three optional cells of a member row: division name, position name, role. */
  function MemberCells(m: Member): (r: (string, string, string))
    ensures r.0 == (if m.division.Some? && m.division.value.name != "" then m.division.value.name else "-")
    ensures r.1 == (if m.position.Some? && m.position.value.name != "" then m.position.value.name else "-")
    ensures r.2 == (if Truthy(m.role) then m.role.value else "-")
  {
    (Cell(if m.division.Some? then Some(m.division.value.name) else None),
     Cell(if m.position.Some? then Some(m.position.value.name) else None),
     Cell(m.role))
  }

  /** The header facts: location (or `-`) and the committee size. */
  datatype Summary = Summary(location: string, committeeCount: nat)

  function SummaryOf(p: DetailRecord): (r: Summary)
    ensures r.committeeCount == |p.anggota|
    ensures Truthy(p.location) ==> r.location == p.location.value
    ensures !Truthy(p.location) ==> r.location == "-"
  {
    Summary(Cell(p.location), |p.anggota|)
  }

  /** The edit button's target. */
  function EditLink(p: DetailRecord): string
  {
    "/dashboard/prokers/" + Text.IntToString(p.id) + "/edit"
  }

  /** Following the edit link, the edit page reads `"edit"` as the proker id. */
  lemma EditLinkReadsEditAsId(p: DetailRecord)
    ensures EditPage.ProkerIdFromPath(EditLink(p)) == Some("edit")
  {
    var id := Text.IntToString(p.id);
    var digits := Text.NatToString(if p.id < 0 then -p.id else p.id);
    assert forall i :: 0 <= i < |digits| ==> digits[i] != '/';
    assert '/' !in id by {
      if p.id < 0 {
        assert id == "-" + digits;
        assert forall i :: 0 <= i < |id| ==> id[i] != '/' by {
          forall i | 0 <= i < |id| ensures id[i] != '/' {
            if i > 0 {
              assert id[i] == digits[i - 1];
            }
          }
        }
      }
    }
    EditPage.EditLinkYieldsEditSegment(id);
  }

  /** `window.location.pathname.split('/').pop()`. */
  function ProkerIdFromPath(pathname: string): (r: string)
    ensures '/' !in r
  {
    Text.Last(Text.Split(pathname, '/'))
  }

  /** The id is the text after the last `/`; a path ending in `/` gives `''`. */
  lemma ProkerIdIsLastSegment(prefix: string, id: string)
    requires '/' !in id
    ensures ProkerIdFromPath(prefix + "/" + id) == id
  {
    assert prefix + "/" + id == prefix + ['/'] + id;
    Text.LastPiece(prefix, '/', id);
  }

  // ---------------------------------------------------------------------------
  // The page's state

  const LoadFailedAlert := Alert(ErrorIcon, "Error", "Gagal memuat detail proker")
  const DeletedAlert := Alert(SuccessIcon, "Terhapus!", "Panitia berhasil dihapus")
  const DeleteFailedAlert := Alert(ErrorIcon, "Gagal!", "Gagal menghapus panitia")

  /** What the page renders. */
  datatype Screen = Loading | NotFound | Details(proker: DetailRecord)

  class DetailPageState {
    const prokerId: string
    var proker: Option<DetailRecord>
    var loading: bool
    var positions: Json
    var divisions: Json

    constructor (pathname: string)
      ensures prokerId == ProkerIdFromPath(pathname)
      ensures proker == None && loading && positions == JArray([]) && divisions == JArray([])
    {
      prokerId := ProkerIdFromPath(pathname);
      proker, loading, positions, divisions := None, true, JArray([]), JArray([]);
    }

    function CurrentScreen(): (s: Screen)
      reads this
      ensures s.Loading? <==> loading
      ensures s.NotFound? <==> !loading && proker.None?
      ensures s.Details? ==> proker == Some(s.proker)
    {
      if loading then Loading else if proker.None? then NotFound else Details(proker.value)
    }

    /** The mount effect `fetchData`, run only for a non-empty id. The three requests
        succeed or fail together; after they succeed the body of each is stored in turn,
        so a `null` positions or divisions body keeps the proker already stored and
        stops there. */
    method FetchData(prokerRes: Outcome<Option<DetailRecord>>, positionsRes: Outcome<Json>, divisionsRes: Outcome<Json>)
      returns (requests: seq<Request<Json>>, alert: Option<Alert>)
      modifies this
      ensures prokerId == "" ==>
                requests == [] && alert == None && proker == old(proker) && loading == old(loading)
                && positions == old(positions) && divisions == old(divisions)
      ensures prokerId != "" ==>
                requests == [Get("/prokers/" + prokerId), Get("/positions"), Get("/divisions")] && !loading
      ensures prokerId != "" && !(prokerRes.Ok? && positionsRes.Ok? && divisionsRes.Ok?) ==>
                alert == Some(LoadFailedAlert) && proker == old(proker)
                && positions == old(positions) && divisions == old(divisions)
      ensures prokerId != "" && prokerRes.Ok? && positionsRes.Ok? && divisionsRes.Ok? ==>
                var ps := NormalisePositions(positionsRes.value);
                var ds := NormaliseDivisions(divisionsRes.value);
                proker == prokerRes.value
                && positions == (if ps.Ok? then ps.value else old(positions))
                && divisions == (if ps.Ok? && ds.Ok? then ds.value else old(divisions))
                && alert == (if ps.Ok? && ds.Ok? then None else Some(LoadFailedAlert))
    {
      requests, alert := [], None;
      if prokerId == "" {
        return;
      }
      loading := true;
      requests := [Get("/prokers/" + prokerId), Get("/positions"), Get("/divisions")];
      if prokerRes.Fail? || positionsRes.Fail? || divisionsRes.Fail? {
        alert := Some(LoadFailedAlert);
      } else {
        proker := prokerRes.value;
        var ps := NormalisePositions(positionsRes.value);
        if ps.Fail? {
          alert := Some(LoadFailedAlert);
        } else {
          positions := ps.value;
          var ds := NormaliseDivisions(divisionsRes.value);
          if ds.Fail? {
            alert := Some(LoadFailedAlert);
          } else {
            divisions := ds.value;
          }
        }
      }
      loading := false;
    }

    /** `handleDeletePanitia(anggotaId)`: the confirmation dialog ("Hapus Panitia?") is shown
        on every call, before any guard, and its answer is `confirmed`; it is not among the
        returned `alerts`. Only a confirmed dialog with a loaded proker sends the delete; a
        sent delete is followed by a refetch, and a failure of either shows the failure alert. */
    method DeletePanitia(anggotaId: int, confirmed: bool, deleteOutcome: Sent, refetch: Outcome<Option<DetailRecord>>)
      returns (requests: seq<Request<Json>>, alerts: seq<Alert>)
      modifies this
      ensures !(confirmed && old(proker).Some?) ==> requests == [] && alerts == [] && proker == old(proker)
      ensures confirmed && old(proker).Some? ==>
                var path := "/prokers/" + Text.IntToString(old(proker).value.id);
                |requests| >= 1 && requests[0] == Delete(path + "/anggota/" + Text.IntToString(anggotaId))
                && (deleteOutcome.Rejected? ==> requests == [requests[0]] && alerts == [DeleteFailedAlert] && proker == old(proker))
                && (deleteOutcome.Sent? ==> requests == [requests[0], Get(path)])
                && (deleteOutcome.Sent? && refetch.Ok? ==> alerts == [DeletedAlert] && proker == refetch.value)
                && (deleteOutcome.Sent? && refetch.Fail? ==> alerts == [DeletedAlert, DeleteFailedAlert] && proker == old(proker))
      ensures loading == old(loading) && positions == old(positions) && divisions == old(divisions)
    {
      requests, alerts := [], [];
      if !(confirmed && proker.Some?) {
        return;
      }
      var path := "/prokers/" + Text.IntToString(proker.value.id);
      requests := [Delete(path + "/anggota/" + Text.IntToString(anggotaId))];
      if deleteOutcome.Rejected? {
        alerts := [DeleteFailedAlert];
        return;
      }
      alerts := [DeletedAlert];
      requests := requests + [Get(path)];
      match refetch {
        case Ok(record) =>
          proker := record;
        case Fail =>
          alerts := alerts + [DeleteFailedAlert];
      }
    }

    /** The modals' `onSuccess` handlers: refetch when a proker is loaded. A failed
        refetch is not caught and leaves the state as it was. */
    method Refresh(response: Outcome<Option<DetailRecord>>) returns (requests: seq<Request<Json>>)
      modifies this
      ensures old(proker).None? ==> requests == [] && proker == old(proker)
      ensures old(proker).Some? ==> requests == [Get("/prokers/" + Text.IntToString(old(proker).value.id))]
      ensures old(proker).Some? ==> proker == (if response.Ok? then response.value else old(proker))
      ensures loading == old(loading) && positions == old(positions) && divisions == old(divisions)
    {
      requests := [];
      if proker.Some? {
        requests := [Get("/prokers/" + Text.IntToString(proker.value.id))];
        if response.Ok? {
          proker := response.value;
        }
      }
    }
  }

  /** A path ending in `/` gives an empty id: nothing is fetched and the page stays on
      its loading screen. */
  lemma EmptyIdStaysLoading(prefix: string)
    ensures ProkerIdFromPath(prefix + "/") == ""
  {
    assert prefix + "/" == prefix + ['/'] + "";
    Text.LastPiece(prefix, '/', "");
  }
}

=== FILE: proker_edit_page.dfy ===
/** The state logic of `resources/js/pages/dashboard/ProkerEditPage.tsx`: the form is
    filled from the fetched work program ("proker"), edited field by field, its
    division selection toggled, and submitted with a PUT; validation errors from the
    server are kept per field and summarised in one alert. */
module EditPage {
  import opened Common
  import Text
  import Selection
  import PropertyOrder

  /** The proker record the page fetches. */
  datatype Proker = Proker(
    id: int, title: string, description: Option<string>, date: string,
    location: Option<string>, status: string, divisions: Option<seq<Division>>)

  /** The form state. */
  datatype FormData = FormData(
    title: string, description: string, divisionIds: seq<int>,
    date: string, location: string, status: string)

  const EmptyForm := FormData("", "", [], "", "", "planned")

  /** The `name` attributes of the form's inputs. */
  datatype InputName = Title | Description | Date | Location | Status

  function FieldKey(n: InputName): string
  {
    match n
    case Title => "title"
    case Description => "description"
    case Date => "date"
    case Location => "location"
    case Status => "status"
  }

  /** The value of the form field an input edits. */
  function FieldValue(f: FormData, n: InputName): string
  {
    match n
    case Title => f.title
    case Description => f.description
    case Date => f.date
    case Location => f.location
    case Status => f.status
  }

  /** `{ ...prev, [name]: value }`. */
  function SetField(f: FormData, n: InputName, value: string): FormData
  {
    match n
    case Title => f.(title := value)
    case Description => f.(description := value)
    case Date => f.(date := value)
    case Location => f.(location := value)
    case Status => f.(status := value)
  }

  /** An input change sets exactly the named field; the selection and every other
      field keep their values. */
  lemma SetFieldOnlyNamed(f: FormData, n: InputName, value: string)
    ensures FieldValue(SetField(f, n, value), n) == value
    ensures forall m :: m != n ==> FieldValue(SetField(f, n, value), m) == FieldValue(f, m)
    ensures SetField(f, n, value).divisionIds == f.divisionIds
  {
  }

  /** `divisions.map(d => d.id)`. */
  function DivisionIds(ds: seq<Division>): (r: seq<int>)
    ensures |r| == |ds|
    ensures forall i :: 0 <= i < |ds| ==> r[i] == ds[i].id
    decreases |ds|
  {
    if ds == [] then [] else [ds[0].id] + DivisionIds(ds[1..])
  }

  /** The form filled from a fetched record: missing description and location become
      `''`, and the selection is the record's division ids in server order. */
  function FormFromRecord(p: Proker): (f: FormData)
    ensures f.title == p.title && f.date == p.date && f.status == p.status
    ensures f.description == (if Truthy(p.description) then p.description.value else "")
    ensures f.location == (if Truthy(p.location) then p.location.value else "")
    ensures p.divisions.None? ==> f.divisionIds == []
    ensures p.divisions.Some? ==> |f.divisionIds| == |p.divisions.value|
    ensures p.divisions.Some? ==> forall i :: 0 <= i < |f.divisionIds| ==> f.divisionIds[i] == p.divisions.value[i].id
  {
    FormData(
      p.title,
      OrElse(p.description, ""),
      if p.divisions.Some? then DivisionIds(p.divisions.value) else [],
      p.date,
      OrElse(p.location, ""),
      p.status)
  }

  // ---------------------------------------------------------------------------
  // The proker id in the URL

  /** `pathname.split('/')[4]`, `undefined` when there are fewer than five pieces. */
  function ProkerIdFromPath(pathname: string): (r: Option<string>)
    ensures |Text.Split(pathname, '/')| > 4 <==> r.Some?
    ensures r.Some? ==> r.value == Text.Split(pathname, '/')[4] && '/' !in r.value
  {
    var pieces := Text.Split(pathname, '/');
    if |pieces| > 4 then Some(pieces[4]) else None
  }

  /** The detail page's edit link is the join of five pieces. */
  lemma EditLinkPieces(id: string)
    ensures Text.Join(["", "dashboard", "prokers", id, "edit"], "/") == "/dashboard/prokers/" + id + "/edit"
  {
    var parts := ["", "dashboard", "prokers", id, "edit"];
    var tail := id + "/edit";
    assert Text.Join(parts[4..], "/") == "edit";
    assert Text.Join(parts[3..], "/") == id + "/" + "edit" == tail;
    assert Text.Join(parts[2..], "/") == "prokers" + "/" + tail;
    assert Text.Join(parts[1..], "/") == "dashboard" + "/" + ("prokers" + "/" + tail);
    assert Text.Join(parts, "/") == "" + "/" + ("dashboard" + "/" + ("prokers" + "/" + tail));
    assert "" + "/" + ("dashboard" + "/" + ("prokers" + "/" + tail)) == "/dashboard/prokers/" + tail;
    assert "/dashboard/prokers/" + tail == "/dashboard/prokers/" + id + "/edit";
  }

  /** The detail page navigates to `/dashboard/prokers/{id}/edit`; piece 4 of that path
      is `"edit"`, not the id. */
  lemma EditLinkYieldsEditSegment(id: string)
    requires '/' !in id
    ensures ProkerIdFromPath("/dashboard/prokers/" + id + "/edit") == Some("edit")
  {
    var parts := ["", "dashboard", "prokers", id, "edit"];
    EditLinkPieces(id);
    assert forall i :: 0 <= i < |parts| ==> '/' !in parts[i];
    Text.SplitJoin(parts, '/');
  }

  /** `${prokerId}` in a template string. */
  function IdText(prokerId: Option<string>): string
  {
    if prokerId.Some? then prokerId.value else "undefined"
  }

  // ---------------------------------------------------------------------------
  // Validation errors

  /** Truthiness of an error value: a message is truthy when non-empty, a list always. */
  predicate ErrorShown(v: ErrorValue)
  {
    v.Messages? || v.text != ""
  }

  /** The errors state after `setErrors(error.response.data.errors)`; a later entry for
      the same field wins. */
  function ErrorMap(entries: seq<(string, ErrorValue)>): (m: map<string, ErrorValue>)
    ensures forall k :: k in m <==> exists i :: 0 <= i < |entries| && entries[i].0 == k
    ensures forall i :: 0 <= i < |entries| && (forall j :: i < j < |entries| ==> entries[j].0 != entries[i].0) ==>
              m[entries[i].0] == entries[i].1
    decreases |entries|
  {
    if entries == [] then map[]
    else
      var init := entries[..|entries| - 1];
      var last := entries[|entries| - 1];
      assert entries == init + [last];
      var m := ErrorMap(init)[last.0 := last.1];
      AssignEntry(init, last, ErrorMap(init), m);
      m
  }

  /** Assigning one more entry to an errors object that holds exactly the fields of
      `init`, each with its last value, gives exactly the fields of `init + [last]`,
      each with its last value. */
  lemma AssignEntry(init: seq<(string, ErrorValue)>, last: (string, ErrorValue), m: map<string, ErrorValue>, r: map<string, ErrorValue>)
    requires r == m[last.0 := last.1]
    requires forall k :: k in m <==> exists i :: 0 <= i < |init| && init[i].0 == k
    requires forall i :: 0 <= i < |init| && (forall j :: i < j < |init| ==> init[j].0 != init[i].0) ==>
               m[init[i].0] == init[i].1
    ensures forall k :: k in r <==> exists i :: 0 <= i < |init + [last]| && (init + [last])[i].0 == k
    ensures forall i :: 0 <= i < |init + [last]| && (forall j :: i < j < |init + [last]| ==> (init + [last])[j].0 != (init + [last])[i].0) ==>
              r[(init + [last])[i].0] == (init + [last])[i].1
  {
    var entries := init + [last];
    assert forall i :: 0 <= i < |init| ==> entries[i] == init[i];
    forall k ensures k in r <==> exists i :: 0 <= i < |entries| && entries[i].0 == k {
      if k == last.0 {
        assert entries[|init|].0 == k;
      } else if exists i :: 0 <= i < |entries| && entries[i].0 == k {
        var i :| 0 <= i < |entries| && entries[i].0 == k;
        assert init[i].0 == k;
      }
    }
    forall i | 0 <= i < |entries| && (forall j :: i < j < |entries| ==> entries[j].0 != entries[i].0)
      ensures r[entries[i].0] == entries[i].1
    {
      if i < |init| {
        assert entries[|init|].0 != entries[i].0;
        assert forall j :: i < j < |init| ==> init[j].0 != init[i].0 by {
          forall j | i < j < |init| ensures init[j].0 != init[i].0 {
            assert entries[j] == init[j];
          }
        }
      }
    }
  }

  /** Every value in the errors state is one the server sent for that field. */
  lemma {:induction false} ErrorMapFromEntries(entries: seq<(string, ErrorValue)>)
    ensures forall k :: k in ErrorMap(entries) ==> exists i :: 0 <= i < |entries| && entries[i] == (k, ErrorMap(entries)[k])
    decreases |entries|
  {
    if entries != [] {
      var init := entries[..|entries| - 1];
      var last := entries[|entries| - 1];
      ErrorMapFromEntries(init);
      forall k | k in ErrorMap(entries)
        ensures exists i :: 0 <= i < |entries| && entries[i] == (k, ErrorMap(entries)[k])
      {
        if k != last.0 {
          var i :| 0 <= i < |init| && init[i] == (k, ErrorMap(init)[k]);
          assert entries[i] == init[i];
        } else {
          assert entries[|entries| - 1] == (k, ErrorMap(entries)[k]);
        }
      }
    }
  }

  /** The field names of the received errors, each once, in the order first seen: the
      order in which the parsed JSON object's properties were created. */
  function FieldKeys(entries: seq<(string, ErrorValue)>): (r: seq<string>)
    ensures Selection.Distinct(r)
    ensures forall k :: k in r <==> exists i :: 0 <= i < |entries| && entries[i].0 == k
    ensures |r| <= |entries|
    decreases |entries|
  {
    if entries == [] then []
    else
      var init := entries[..|entries| - 1];
      var ks := FieldKeys(init);
      assert forall i :: 0 <= i < |init| ==> init[i] == entries[i];
      var k := entries[|entries| - 1].0;
      if k in ks then ks
      else
        assert forall i :: 0 <= i < |ks| ==> ks[i] != k;
        ks + [k]
  }

  /** A property name that is an array index: decimal digits without a leading zero,
      of value below 2^32 - 1. */
  predicate IsArrayIndex(k: string)
  {
    && |k| >= 1
    && (forall i :: 0 <= i < |k| ==> Text.IsDigit(k[i]))
    && (k[0] != '0' || |k| == 1)
    && Text.DecimalValue(k) < 0xFFFF_FFFF
  }

  /** The numeric value an array-index property name is ordered by. */
  function IndexRank(k: string): int
  {
    if IsArrayIndex(k) then Text.DecimalValue(k) else 0
  }

  /** The array-index property names are exactly the decimal texts of 0 .. 2^32 - 2. */
  lemma ArrayIndexIsCanonicalNumber(k: string)
    ensures IsArrayIndex(k) <==> exists n: nat :: n < 0xFFFF_FFFF && k == Text.NatToString(n)
  {
    if IsArrayIndex(k) {
      Text.DecimalValueString(k);
      assert k == Text.NatToString(Text.DecimalValue(k));
    }
    if n: nat :| n < 0xFFFF_FFFF && k == Text.NatToString(n) {
      Text.NatToStringValue(n);
    }
  }

  /** The order `Object.entries` lists the received errors' fields in. */
  function FieldOrder(entries: seq<(string, ErrorValue)>): seq<string>
  {
    PropertyOrder.EnumerationOrder(FieldKeys(entries), IsArrayIndex, IndexRank)
  }

  /** The listed fields: every field once, array-index fields first by ascending value,
      then the others in the order first seen; each is a key of the errors state. */
  lemma FieldOrderMeaning(entries: seq<(string, ErrorValue)>)
    ensures Selection.Distinct(FieldOrder(entries))
    ensures |FieldOrder(entries)| == |FieldKeys(entries)|
    ensures forall k :: k in FieldOrder(entries) <==> exists i :: 0 <= i < |entries| && entries[i].0 == k
    ensures forall i :: 0 <= i < |FieldOrder(entries)| ==> FieldOrder(entries)[i] in ErrorMap(entries)
    ensures forall i, j :: 0 <= i < j < |FieldOrder(entries)| && IsArrayIndex(FieldOrder(entries)[j]) ==>
              IsArrayIndex(FieldOrder(entries)[i]) && IndexRank(FieldOrder(entries)[i]) <= IndexRank(FieldOrder(entries)[j])
    ensures PropertyOrder.OtherKeys(FieldKeys(entries), IsArrayIndex) ==
              FieldOrder(entries)[|FieldOrder(entries)| - |PropertyOrder.OtherKeys(FieldKeys(entries), IsArrayIndex)|..]
  {
    var keys := FieldKeys(entries);
    var order := FieldOrder(entries);
    PropertyOrder.EnumerationIsPermutation(keys, IsArrayIndex, IndexRank);
    PropertyOrder.IndexKeysFirst(keys, IsArrayIndex, IndexRank);
    var idx := PropertyOrder.IndexKeys(keys, IsArrayIndex);
    var others := PropertyOrder.OtherKeys(keys, IsArrayIndex);
    var sorted := PropertyOrder.SortBy(idx, IndexRank);
    assert order == sorted + others;
    forall i | 0 <= i < |order| ensures order[i] in ErrorMap(entries) {
      assert order[i] in order;
    }
    forall i, j | 0 <= i < j < |order| && IsArrayIndex(order[j])
      ensures IsArrayIndex(order[i]) && IndexRank(order[i]) <= IndexRank(order[j])
    {
      assert j < |idx|;
      assert order[i] == sorted[i] && order[j] == sorted[j];
    }
    assert order[|order| - |others|..] == others;
  }

  /** `field.replace(/_/g, ' ').replace(/^\w/, c => c.toUpperCase())`. */
  function FieldLabel(field: string): (caption: string)
    ensures |caption| == |field|
    ensures '_' !in caption
    ensures forall i :: 0 < i < |field| ==> caption[i] == (if field[i] == '_' then ' ' else field[i])
    ensures |field| > 0 && 'a' <= field[0] <= 'z' ==> caption[0] == Text.UpperWordChar(field[0]) && 'A' <= caption[0] <= 'Z'
    ensures |field| > 0 && !('a' <= field[0] <= 'z') ==> caption[0] == (if field[0] == '_' then ' ' else field[0])
  {
    var spaced := Text.UnderscoresToSpaces(field);
    var caption := Text.UpperFirst(spaced);
    assert forall i :: 0 <= i < |caption| ==> caption[i] != '_' by {
      forall i | 0 <= i < |caption| ensures caption[i] != '_' {
        if i == 0 && Text.IsWordChar(spaced[0]) {
          assert caption[0] == Text.UpperWordChar(spaced[0]);
        }
      }
    }
    caption
  }

  /** `Array.isArray(msgs) ? msgs[0] : msgs` inside a template string; the first of an
      empty list is `undefined`. */
  function MessageText(v: ErrorValue): string
  {
    match v
    case Messages(ts) => if |ts| > 0 then ts[0] else "undefined"
    case Message(t) => t
  }

  /** One error line: `${fieldLabel}: ${Array.isArray(msgs) ? msgs[0] : msgs}`. */
  function FieldLine(field: string, v: ErrorValue): string
  {
    FieldLabel(field) + ": " + MessageText(v)
  }

  /** The lines for the listed fields, each with its value in the errors state. */
  function LinesFor(fields: seq<string>, errors: map<string, ErrorValue>): (lines: seq<string>)
    requires forall i :: 0 <= i < |fields| ==> fields[i] in errors
    ensures |lines| == |fields|
    ensures forall i :: 0 <= i < |fields| ==> lines[i] == FieldLine(fields[i], errors[fields[i]])
    decreases |fields|
  {
    if fields == [] then []
    else
      var rest := fields[1..];
      assert forall i :: 0 <= i < |rest| ==> rest[i] == fields[i + 1];
      [FieldLine(fields[0], errors[fields[0]])] + LinesFor(rest, errors)
  }

  /** `Object.entries(errors).map(...)`: one line per distinct field, in `Object.entries`
      order, showing the field's last received value. */
  function ErrorLines(entries: seq<(string, ErrorValue)>): (lines: seq<string>)
    ensures |lines| == |FieldOrder(entries)| == |FieldKeys(entries)|
    ensures forall i :: 0 <= i < |lines| ==>
              var k := FieldOrder(entries)[i]; k in ErrorMap(entries) && lines[i] == FieldLine(k, ErrorMap(entries)[k])
  {
    FieldOrderMeaning(entries);
    LinesFor(FieldOrder(entries), ErrorMap(entries))
  }

  /** The validation alert's text: the lines joined with `'\n'`. */
  function ValidationText(entries: seq<(string, ErrorValue)>): string
  {
    Text.Join(ErrorLines(entries), "\n")
  }

  /** A label has a line break only where the field name has one. */
  lemma LabelWithoutBreak(field: string)
    requires '\n' !in field
    ensures '\n' !in FieldLabel(field)
  {
    var caption := FieldLabel(field);
    forall k | 0 <= k < |caption| ensures caption[k] != '\n' {
      assert field[k] != '\n';
    }
  }

  lemma LineWithoutBreak(entry: (string, ErrorValue))
    requires '\n' !in entry.0 && '\n' !in MessageText(entry.1)
    ensures '\n' !in FieldLine(entry.0, entry.1)
  {
    LabelWithoutBreak(entry.0);
  }

  /** When no field name and no message contains a line break, the alert text has one
      line per distinct field, in `Object.entries` order, each `Label: message` with the
      field's last message. */
  lemma ValidationTextLines(entries: seq<(string, ErrorValue)>)
    requires |entries| >= 1
    requires forall i :: 0 <= i < |entries| ==> '\n' !in entries[i].0 && '\n' !in MessageText(entries[i].1)
    ensures Text.Split(ValidationText(entries), '\n') == ErrorLines(entries)
    ensures |Text.Split(ValidationText(entries), '\n')| == |FieldKeys(entries)|
  {
    var lines := ErrorLines(entries);
    var m := ErrorMap(entries);
    assert entries[0].0 in FieldKeys(entries);
    ErrorMapFromEntries(entries);
    forall i | 0 <= i < |lines| ensures '\n' !in lines[i] {
      var k := FieldOrder(entries)[i];
      var j :| 0 <= j < |entries| && entries[j] == (k, m[k]);
      LineWithoutBreak(entries[j]);
    }
    Text.SplitJoin(lines, '\n');
  }

  /** A field received twice is listed once, with its later message. */
  lemma RepeatedFieldListedOnce(field: string, first: ErrorValue, second: ErrorValue)
    ensures ErrorLines([(field, first), (field, second)]) == [FieldLine(field, second)]
  {
    var entries := [(field, first), (field, second)];
    assert entries[..1] == [(field, first)];
    assert FieldKeys(entries) == [field];
    assert ErrorMap(entries)[field] == second;
    assert [field][1..] == [];
    if IsArrayIndex(field) {
      assert PropertyOrder.IndexKeys([field], IsArrayIndex) == [field];
      assert PropertyOrder.OtherKeys([field], IsArrayIndex) == [];
      assert PropertyOrder.SortBy([field], IndexRank) == [field];
    } else {
      assert PropertyOrder.IndexKeys([field], IsArrayIndex) == [];
      assert PropertyOrder.OtherKeys([field], IsArrayIndex) == [field];
    }
    assert FieldOrder(entries) == [field];
  }

  /** Two different fields are listed by `FieldKeys` in the order received. */
  lemma TwoFieldKeys(a: (string, ErrorValue), b: (string, ErrorValue))
    requires a.0 != b.0
    ensures FieldKeys([a, b]) == [a.0, b.0]
  {
    assert [a, b][..1] == [a];
    assert [a][..0] == [];
  }

  /** An array-index field is listed before a named field received earlier. */
  lemma IndexFieldListedFirst(named: ErrorValue, indexed: ErrorValue)
    ensures ErrorLines([("title", named), ("0", indexed)]) == [FieldLine("0", indexed), FieldLine("title", named)]
  {
    var entries := [("title", named), ("0", indexed)];
    TwoFieldKeys(entries[0], entries[1]);
    assert !IsArrayIndex("title") by {
      assert !Text.IsDigit("title"[0]);
    }
    assert IsArrayIndex("0") by {
      assert Text.DecimalValue("0") == 0 by {
        assert "0"[..0] == [];
      }
    }
    PropertyOrder.OtherThenIndex("title", "0", IsArrayIndex, IndexRank);
    assert FieldOrder(entries) == ["0", "title"];
    assert ErrorMap(entries)["0"] == indexed;
    assert ErrorMap(entries)["title"] == named;
  }

  /** Whether a rejected PUT carried field errors (`error.response?.data?.errors`). */
  predicate HasFieldErrors(outcome: Sent)
  {
    outcome.Rejected? && outcome.error.data.Some? && outcome.error.data.value.errors.Some?
  }

  /** The alert a submit ends with. */
  function SubmitAlert(outcome: Sent): (a: Alert)
    ensures outcome.Sent? ==> a == Alert(SuccessIcon, "Berhasil!", "Proker berhasil diperbarui")
    ensures outcome.Rejected? ==> a.icon == ErrorIcon
    ensures HasFieldErrors(outcome) ==> a.title == "Validasi Gagal!"
    ensures outcome.Rejected? && !HasFieldErrors(outcome) ==> a.title == "Gagal!"
    ensures HasFieldErrors(outcome) ==> a.text == ValidationText(outcome.error.data.value.errors.value)
    ensures outcome.Rejected? && !HasFieldErrors(outcome) ==>
              a.text == (if outcome.error.data.Some? then OrElse(outcome.error.data.value.message, "Terjadi kesalahan")
                         else "Terjadi kesalahan")
  {
    match outcome
    case Sent => Alert(SuccessIcon, "Berhasil!", "Proker berhasil diperbarui")
    case Rejected(e) =>
      if HasFieldErrors(outcome) then Alert(ErrorIcon, "Validasi Gagal!", ValidationText(e.data.value.errors.value))
      else Alert(ErrorIcon, "Gagal!", if e.data.Some? then OrElse(e.data.value.message, "Terjadi kesalahan") else "Terjadi kesalahan")
  }

  /** The errors state a submit ends with: cleared first, then the server's field errors. */
  function SubmitErrors(outcome: Sent): map<string, ErrorValue>
  {
    if HasFieldErrors(outcome) then ErrorMap(outcome.error.data.value.errors.value) else map[]
  }

  const ListPath := "/dashboard/prokers"
  const LoadFailedAlert := Alert(ErrorIcon, "Gagal!", "Gagal memuat data proker")

  // ---------------------------------------------------------------------------
  // The page's state

  class EditPageState {
    const prokerId: Option<string>
    var proker: Option<Proker>
    var loading: bool
    var submitting: bool
    var errors: map<string, ErrorValue>
    var formData: FormData

    /** The first render, at `pathname`. */
    constructor (pathname: string)
      ensures prokerId == ProkerIdFromPath(pathname)
      ensures proker == None && loading && !submitting && errors == map[] && formData == EmptyForm
    {
      prokerId := ProkerIdFromPath(pathname);
      proker, loading, submitting, errors, formData := None, true, false, map[], EmptyForm;
    }

    /** The mount effect: fetch only for a non-empty id. Without one, nothing runs and
        the page stays on its loading screen. */
    method Load(response: Outcome<Proker>) returns (request: Option<Request<FormData>>, alert: Option<Alert>, visit: Option<string>)
      modifies this
      ensures request.Some? <==> Truthy(prokerId)
      ensures request.Some? ==> request.value == Get("/prokers/" + prokerId.value)
      ensures !Truthy(prokerId) ==> proker == old(proker) && loading == old(loading) && formData == old(formData)
                                    && alert == None && visit == None
      ensures Truthy(prokerId) && response.Ok? ==>
                proker == Some(response.value) && formData == FormFromRecord(response.value) && alert == None && visit == None
      ensures Truthy(prokerId) && response.Fail? ==>
                proker == old(proker) && formData == old(formData) && alert == Some(LoadFailedAlert) && visit == Some(ListPath)
      ensures Truthy(prokerId) ==> !loading
      ensures errors == old(errors) && submitting == old(submitting)
    {
      request, alert, visit := None, None, None;
      if !Truthy(prokerId) {
        return;
      }
      loading := true;
      request := Some(Get("/prokers/" + prokerId.value));
      match response {
        case Ok(data) =>
          proker := Some(data);
          formData := FormFromRecord(data);
        case Fail =>
          alert := Some(LoadFailedAlert);
          visit := Some(ListPath);
      }
      loading := false;
    }

    /** `handleDivisionToggle(divisionId)`. */
    method ToggleDivision(divisionId: int)
      modifies this
      ensures formData == old(formData).(divisionIds := Selection.Toggle(old(formData.divisionIds), divisionId))
      ensures errors == old(errors) && proker == old(proker) && loading == old(loading) && submitting == old(submitting)
    {
      formData := formData.(divisionIds := Selection.Toggle(formData.divisionIds, divisionId));
    }

    /** `handleInputChange`: set the field; clear its error only if one is shown. */
    method InputChange(name: InputName, value: string)
      modifies this
      ensures formData == SetField(old(formData), name, value)
      ensures FieldKey(name) in old(errors) && ErrorShown(old(errors)[FieldKey(name)]) ==>
                errors == old(errors)[FieldKey(name) := Message("")]
      ensures !(FieldKey(name) in old(errors) && ErrorShown(old(errors)[FieldKey(name)])) ==> errors == old(errors)
      ensures proker == old(proker) && loading == old(loading) && submitting == old(submitting)
    {
      formData := SetField(formData, name, value);
      var key := FieldKey(name);
      if key in errors && ErrorShown(errors[key]) {
        errors := errors[key := Message("")];
      }
    }

    /** `handleSubmit`: PUT the whole form, then report; `submitting` ends false on
        every path. */
    method Submit(outcome: Sent) returns (request: Request<FormData>, alert: Alert, visit: Option<string>)
      modifies this
      ensures request == Put("/prokers/" + IdText(prokerId), old(formData))
      ensures !submitting
      ensures errors == SubmitErrors(outcome)
      ensures alert == SubmitAlert(outcome)
      ensures visit == (if outcome.Sent? then Some(ListPath) else None)
      ensures formData == old(formData) && proker == old(proker) && loading == old(loading)
    {
      errors := map[];
      submitting := true;
      request := Put("/prokers/" + IdText(prokerId), formData);
      visit := None;
      match outcome {
        case Sent =>
          alert := Alert(SuccessIcon, "Berhasil!", "Proker berhasil diperbarui");
          visit := Some(ListPath);
        case Rejected(e) =>
          if e.data.Some? && e.data.value.errors.Some? {
            errors := ErrorMap(e.data.value.errors.value);
            alert := Alert(ErrorIcon, "Validasi Gagal!", ValidationText(e.data.value.errors.value));
          } else {
            var message := if e.data.Some? then e.data.value.message else None;
            alert := Alert(ErrorIcon, "Gagal!", OrElse(message, "Terjadi kesalahan"));
          }
      }
      submitting := false;
    }
  }
}

=== FILE: property_order.dfy ===
/** The order in which JavaScript enumerates an object's own properties
    (`Object.keys`, `Object.values`, `Object.entries`): first the keys that are
    array indices, in ascending numeric order, then the other keys in the order
    they were first added. The key type is left open: `isIndex` says which keys
    are array indices and `rank` gives an index key its numeric value. */
module PropertyOrder {
  import Selection

  function IndexKeys<K(!new)>(keys: seq<K>, isIndex: K -> bool): (r: seq<K>)
    ensures forall x :: x in r ==> isIndex(x)
    ensures forall x :: x in r ==> x in keys
    decreases |keys|
  {
    if keys == [] then []
    else (if isIndex(keys[0]) then [keys[0]] else []) + IndexKeys(keys[1..], isIndex)
  }

  function OtherKeys<K(!new)>(keys: seq<K>, isIndex: K -> bool): (r: seq<K>)
    ensures forall x :: x in r ==> !isIndex(x)
    ensures forall x :: x in r ==> x in keys
    decreases |keys|
  {
    if keys == [] then []
    else (if isIndex(keys[0]) then [] else [keys[0]]) + OtherKeys(keys[1..], isIndex)
  }

  /** Ascending by `rank`. */
  predicate SortedBy<K(!new)>(s: seq<K>, rank: K -> int)
  {
    forall i, j :: 0 <= i < j < |s| ==> rank(s[i]) <= rank(s[j])
  }

  /** Inserts `x` into a list ascending by `rank`. */
  function Insert<K(!new)>(x: K, s: seq<K>, rank: K -> int): (r: seq<K>)
    ensures |r| == |s| + 1
    ensures forall y :: y in r <==> y in s || y == x
    ensures multiset(r) == multiset(s) + multiset{x}
    decreases |s|
  {
    if s == [] then [x]
    else if rank(x) <= rank(s[0]) then [x] + s
    else
      assert s == [s[0]] + s[1..];
      [s[0]] + Insert(x, s[1..], rank)
  }

  lemma {:induction false} InsertSorted<K(!new)>(x: K, s: seq<K>, rank: K -> int)
    requires SortedBy(s, rank)
    ensures SortedBy(Insert(x, s, rank), rank)
    decreases |s|
  {
    if s != [] && rank(x) > rank(s[0]) {
      var rest := Insert(x, s[1..], rank);
      assert SortedBy(s[1..], rank);
      assert forall k :: 0 <= k < |s[1..]| ==> rank(s[0]) <= rank(s[1..][k]);
      InsertSorted(x, s[1..], rank);
      forall j | 0 <= j < |rest| ensures rank(s[0]) <= rank(rest[j]) {
        assert rest[j] in rest;
        if rest[j] != x {
          assert rest[j] in s[1..];
        }
      }
      var r := [s[0]] + rest;
      forall i, j | 0 <= i < j < |r| ensures rank(r[i]) <= rank(r[j]) {
        if i > 0 {
          assert r[i] == rest[i - 1] && r[j] == rest[j - 1];
        }
      }
    }
  }

  /** A stable insertion sort by `rank`. */
  function SortBy<K(!new)>(s: seq<K>, rank: K -> int): (r: seq<K>)
    ensures |r| == |s|
    ensures multiset(r) == multiset(s)
    ensures SortedBy(r, rank)
    decreases |s|
  {
    if s == [] then []
    else
      assert s == [s[0]] + s[1..];
      var sortedRest := SortBy(s[1..], rank);
      InsertSorted(s[0], sortedRest, rank);
      Insert(s[0], sortedRest, rank)
  }

  /** The enumeration order of an object whose keys were added in the order `insertion`. */
  function EnumerationOrder<K(!new)>(insertion: seq<K>, isIndex: K -> bool, rank: K -> int): seq<K>
  {
    SortBy(IndexKeys(insertion, isIndex), rank) + OtherKeys(insertion, isIndex)
  }

  lemma {:induction false} FilterPartition<K(!new)>(keys: seq<K>, isIndex: K -> bool)
    ensures multiset(IndexKeys(keys, isIndex)) + multiset(OtherKeys(keys, isIndex)) == multiset(keys)
    decreases |keys|
  {
    if keys != [] {
      var rest := keys[1..];
      FilterPartition(rest, isIndex);
      assert keys == [keys[0]] + rest;
      assert multiset(keys) == multiset{keys[0]} + multiset(rest);
      if isIndex(keys[0]) {
        assert IndexKeys(keys, isIndex) == [keys[0]] + IndexKeys(rest, isIndex);
        assert OtherKeys(keys, isIndex) == OtherKeys(rest, isIndex);
      } else {
        assert IndexKeys(keys, isIndex) == IndexKeys(rest, isIndex);
        assert OtherKeys(keys, isIndex) == [keys[0]] + OtherKeys(rest, isIndex);
      }
    }
  }

  lemma {:induction false} NoOtherKeys<K(!new)>(keys: seq<K>, isIndex: K -> bool)
    requires forall i :: 0 <= i < |keys| ==> isIndex(keys[i])
    ensures OtherKeys(keys, isIndex) == []
    decreases |keys|
  {
    if keys != [] {
      NoOtherKeys(keys[1..], isIndex);
    }
  }

  /** Enumeration neither loses nor repeats a key; a duplicate-free key list stays so. */
  lemma EnumerationIsPermutation<K(!new)>(insertion: seq<K>, isIndex: K -> bool, rank: K -> int)
    ensures multiset(EnumerationOrder(insertion, isIndex, rank)) == multiset(insertion)
    ensures |EnumerationOrder(insertion, isIndex, rank)| == |insertion|
    ensures forall x :: x in EnumerationOrder(insertion, isIndex, rank) <==> x in insertion
    ensures Selection.Distinct(insertion) ==> Selection.Distinct(EnumerationOrder(insertion, isIndex, rank))
  {
    var sorted := SortBy(IndexKeys(insertion, isIndex), rank);
    var listed := sorted + OtherKeys(insertion, isIndex);
    FilterPartition(insertion, isIndex);
    assert multiset(listed) == multiset(sorted) + multiset(OtherKeys(insertion, isIndex));
    assert |listed| == |multiset(listed)| == |multiset(insertion)| == |insertion|;
    forall x ensures x in listed <==> x in insertion {
      assert x in listed <==> x in multiset(listed);
      assert x in insertion <==> x in multiset(insertion);
    }
    if Selection.Distinct(insertion) {
      Selection.DistinctPermutation(insertion, listed);
    }
  }

  /** The index keys come first, ascending by rank, and every later key is not an index. */
  lemma IndexKeysFirst<K(!new)>(insertion: seq<K>, isIndex: K -> bool, rank: K -> int)
    ensures SortedBy(EnumerationOrder(insertion, isIndex, rank)[..|IndexKeys(insertion, isIndex)|], rank)
    ensures forall i :: 0 <= i < |IndexKeys(insertion, isIndex)| ==> isIndex(EnumerationOrder(insertion, isIndex, rank)[i])
    ensures forall i :: |IndexKeys(insertion, isIndex)| <= i < |EnumerationOrder(insertion, isIndex, rank)| ==>
              !isIndex(EnumerationOrder(insertion, isIndex, rank)[i])
  {
    var idx := IndexKeys(insertion, isIndex);
    var others := OtherKeys(insertion, isIndex);
    var sorted := SortBy(idx, rank);
    var listed := sorted + others;
    assert listed[..|idx|] == sorted;
    forall i | 0 <= i < |idx| ensures isIndex(listed[i]) {
      assert listed[i] == sorted[i];
      assert sorted[i] in multiset(idx);
    }
    forall i | |idx| <= i < |listed| ensures !isIndex(listed[i]) {
      assert listed[i] == others[i - |idx|];
    }
  }

  /** A key list made only of index keys is enumerated ascending by rank, whatever the
      insertion order. */
  lemma OnlyIndexKeysAscending<K(!new)>(insertion: seq<K>, isIndex: K -> bool, rank: K -> int)
    requires forall i :: 0 <= i < |insertion| ==> isIndex(insertion[i])
    ensures SortedBy(EnumerationOrder(insertion, isIndex, rank), rank)
    ensures multiset(EnumerationOrder(insertion, isIndex, rank)) == multiset(insertion)
  {
    NoOtherKeys(insertion, isIndex);
    assert EnumerationOrder(insertion, isIndex, rank) == SortBy(IndexKeys(insertion, isIndex), rank) + [];
    EnumerationIsPermutation(insertion, isIndex, rank);
  }

  lemma {:induction false} AllOtherKeys<K(!new)>(keys: seq<K>, isIndex: K -> bool)
    requires forall i :: 0 <= i < |keys| ==> !isIndex(keys[i])
    ensures IndexKeys(keys, isIndex) == []
    ensures OtherKeys(keys, isIndex) == keys
    decreases |keys|
  {
    if keys != [] {
      AllOtherKeys(keys[1..], isIndex);
      assert keys == [keys[0]] + keys[1..];
    }
  }

  /** A key list with no index key is enumerated in insertion order. */
  lemma NoIndexKeysInInsertionOrder<K(!new)>(insertion: seq<K>, isIndex: K -> bool, rank: K -> int)
    requires forall i :: 0 <= i < |insertion| ==> !isIndex(insertion[i])
    ensures EnumerationOrder(insertion, isIndex, rank) == insertion
  {
    AllOtherKeys(insertion, isIndex);
    assert EnumerationOrder(insertion, isIndex, rank) == [] + insertion;
  }

  /** A non-index key added before an index key is enumerated after it. */
  lemma OtherThenIndex<K(!new)>(a: K, b: K, isIndex: K -> bool, rank: K -> int)
    requires !isIndex(a) && isIndex(b)
    ensures EnumerationOrder([a, b], isIndex, rank) == [b, a]
  {
    assert [a, b][1..] == [b] && [b][1..] == [];
    assert IndexKeys([b], isIndex) == [b] + IndexKeys([], isIndex);
    assert IndexKeys([a, b], isIndex) == [] + IndexKeys([b], isIndex);
    assert OtherKeys([b], isIndex) == [] + OtherKeys([], isIndex);
    assert OtherKeys([a, b], isIndex) == [a] + OtherKeys([b], isIndex);
    assert SortBy([b], rank) == [b];
  }
}

=== FILE: scroll_reveal.dfy ===
/** The reveal wrapper of `resources/js/components/ui/ScrollReveal.tsx`: an effect that
    binds its element to a fresh ScrollReveal instance, or, when that fails, fades
    the element in with inline styles over two steps (now, and on the next animation
    frame). The cleanup destroys the instance the effect created, if any. */
module Reveal {
  import opened Common
  import Text

  datatype Origin = Top | Bottom | Left | Right

  function OriginName(o: Origin): string
  {
    match o
    case Top => "top"
    case Bottom => "bottom"
    case Left => "left"
    case Right => "right"
  }

  /** The component's props; `None` is an omitted prop. */
  datatype RevealProps = RevealProps(
    origin: Option<Origin>, distance: Option<string>, duration: Option<nat>, delay: Option<nat>)

  /** The props after their defaults are applied. */
  datatype RevealConfig = RevealConfig(origin: Origin, distance: string, duration: nat, delay: nat)

  /** Defaults apply only to omitted props: origin `bottom`, distance `20px`,
      duration 600 and delay 0. */
  function WithDefaults(p: RevealProps): (c: RevealConfig)
    ensures c.origin == (if p.origin.Some? then p.origin.value else Bottom)
    ensures c.distance == (if p.distance.Some? then p.distance.value else "20px")
    ensures c.duration == (if p.duration.Some? then p.duration.value else 600)
    ensures c.delay == (if p.delay.Some? then p.delay.value else 0)
  {
    RevealConfig(
      if p.origin.Some? then p.origin.value else Bottom,
      if p.distance.Some? then p.distance.value else "20px",
      if p.duration.Some? then p.duration.value else 600,
      if p.delay.Some? then p.delay.value else 0)
  }

  const RevealEasing := "cubic-bezier(.22,.61,.36,1)"

  /** The options `reveal(node, ...)` receives. */
  function NodeOptions(c: RevealConfig): NodeRevealOptions
  {
    NodeRevealOptions(OriginName(c.origin), c.distance, c.duration, c.delay, RevealEasing)
  }

  /** The three inline style properties the fallback writes. */
  datatype Style = Style(opacity: string, transform: string, transition: string)

  /** The fallback's first step: hidden, and moved down by the distance when the
      origin is `bottom` (every other origin gets no offset). */
  function FallbackStart(s: Style, c: RevealConfig): Style
  {
    s.(opacity := "0",
       transform := "translateY(" + (if c.origin == Bottom then c.distance else "0") + ")")
  }

  /** `opacity Dms ease, transform Dms ease`. */
  function Transition(duration: nat): string
  {
    var d := Text.NatToString(duration);
    "opacity " + d + "ms ease, transform " + d + "ms ease"
  }

  /** The fallback's second step, on the next animation frame. */
  function FallbackFrame(s: Style, c: RevealConfig): Style
  {
    Style("1", "translateY(0)", Transition(c.duration))
  }

  /** The fallback runs when the import rejects or when the `.then` body throws, which
      includes `reveal` throwing after the instance was created. */
  predicate FallbackApplies(factory: Outcome<Handle>, revealThrows: bool)
  {
    factory.Fail? || revealThrows
  }

  /** The first step hides the element and keeps its transition; only a `bottom`
      origin gets an offset, and it is exactly the configured distance. */
  lemma FallbackStartHides(s: Style, c: RevealConfig)
    ensures FallbackStart(s, c).opacity == "0"
    ensures FallbackStart(s, c).transition == s.transition
    ensures c.origin == Bottom ==> FallbackStart(s, c).transform == "translateY(" + c.distance + ")"
    ensures c.origin != Bottom ==> FallbackStart(s, c).transform == "translateY(0)"
  {
  }

  /** After both steps the element is visible and in place, whatever it started from,
      and the transition text carries the configured duration in decimal. */
  lemma {:induction false} FallbackEndsVisible(s: Style, c: RevealConfig)
    ensures FallbackFrame(FallbackStart(s, c), c).opacity == "1"
    ensures FallbackFrame(FallbackStart(s, c), c).transform == "translateY(0)"
    ensures exists d: string :: |d| >= 1
              && (forall i :: 0 <= i < |d| ==> Text.IsDigit(d[i]))
              && Text.DecimalValue(d) == c.duration
              && FallbackFrame(FallbackStart(s, c), c).transition == "opacity " + d + "ms ease, transform " + d + "ms ease"
  {
    Text.NatToStringValue(c.duration);
    var d := Text.NatToString(c.duration);
    assert Text.DecimalValue(d) == c.duration;
  }

  /** The wrapper's element, with its inline style. */
  class StyledNode {
    var style: Style

    constructor (style: Style)
      ensures this.style == style
    {
      this.style := style;
    }
  }

  /** What the effect's cleanup closes over: the `sr` local. */
  class RevealEffect {
    var sr: Option<Handle>

    constructor (sr: Option<Handle>)
      ensures this.sr == sr
    {
      this.sr := sr;
    }

    /** The cleanup: `if (sr && sr.destroy) sr.destroy()`. */
    method Cleanup() returns (calls: seq<Call>)
      ensures sr.Some? && sr.value.hasDestroy ==> calls == [Destroy(sr.value)]
      ensures !(sr.Some? && sr.value.hasDestroy) ==> calls == []
    {
      calls := [];
      if sr.Some? && sr.value.hasDestroy {
        calls := [Destroy(sr.value)];
      }
    }
  }

  /** The effect body, taken as one atomic step with the import settled: `factory` is
      the import together with the factory call `ScrollReveal()`, `revealThrows` says
      whether `sr.reveal(...)` throws. A missing element does nothing and registers no
      cleanup. */
  method RunEffect(node: StyledNode?, props: RevealProps, factory: Outcome<Handle>, revealThrows: bool)
    returns (cleanup: RevealEffect?, calls: seq<Call>, frameRequested: bool)
    modifies node
    ensures node == null ==> cleanup == null && calls == [] && !frameRequested
    ensures node != null ==> cleanup != null && fresh(cleanup)
    ensures node != null ==> cleanup.sr == (if factory.Ok? then Some(factory.value) else None)
    ensures node != null ==> calls == (if factory.Ok? then [RevealNode(factory.value, NodeOptions(WithDefaults(props)))] else [])
    ensures node != null ==> frameRequested == FallbackApplies(factory, revealThrows)
    ensures node != null ==> node.style == (if FallbackApplies(factory, revealThrows)
                                             then FallbackStart(old(node.style), WithDefaults(props))
                                             else old(node.style))
  {
    cleanup, calls, frameRequested := null, [], false;
    if node == null {
      return;
    }
    var config := WithDefaults(props);
    var sr: Option<Handle> := None;
    var failed := false;
    if factory.Ok? {
      sr := Some(factory.value);
      calls := [RevealNode(factory.value, NodeOptions(config))];
      failed := revealThrows;
    } else {
      failed := true;
    }
    if failed {
      node.style := node.style.(opacity := "0");
      node.style := node.style.(transform := "translateY(" + (if config.origin == Bottom then config.distance else "0") + ")");
      frameRequested := true;
    }
    cleanup := new RevealEffect(sr);
  }

  /** The fallback's `requestAnimationFrame` callback. */
  method AnimationFrame(node: StyledNode, props: RevealProps)
    modifies node
    ensures node.style == FallbackFrame(old(node.style), WithDefaults(props))
  {
    var config := WithDefaults(props);
    node.style := node.style.(transition := Transition(config.duration));
    node.style := node.style.(opacity := "1");
    node.style := node.style.(transform := "translateY(0)");
  }

  /** The library path and the fallback are not exclusive: when `reveal` throws on an
      instance the factory created, the reveal was still requested, the fallback fades the
      element in over its two steps, and the cleanup destroys that same instance. */
  method LibraryAndFallbackTogether(node: StyledNode, props: RevealProps, instance: Handle)
    returns (calls: seq<Call>, teardown: seq<Call>)
    modifies node
    ensures calls == [RevealNode(instance, NodeOptions(WithDefaults(props)))]
    ensures node.style == FallbackFrame(FallbackStart(old(node.style), WithDefaults(props)), WithDefaults(props))
    ensures teardown == (if instance.hasDestroy then [Destroy(instance)] else [])
  {
    var cleanup, frameRequested;
    cleanup, calls, frameRequested := RunEffect(node, props, Ok(instance), true);
    assert frameRequested;
    AnimationFrame(node, props);
    teardown := cleanup.Cleanup();
  }
}

=== FILE: selection.dfy ===
/** The division-selection toggle shared by the edit page and the edit-divisions
    modal: `ids.includes(id) ? ids.filter(x => x !== id) : [...ids, id]`. */
module Selection {

  /** `ids.filter(x => x !== id)`. */
  function Without(ids: seq<int>, id: int): (r: seq<int>)
    ensures forall x :: x in r <==> x in ids && x != id
    ensures |r| <= |ids|
    decreases |ids|
  {
    if ids == [] then []
    else if ids[0] == id then Without(ids[1..], id)
    else [ids[0]] + Without(ids[1..], id)
  }

  /** The toggle updater. */
  function Toggle(ids: seq<int>, id: int): seq<int>
  {
    if id in ids then Without(ids, id) else ids + [id]
  }

  /** No element occurs twice. */
  predicate Distinct<T(==)>(ids: seq<T>)
  {
    forall i, j :: 0 <= i < j < |ids| ==> ids[i] != ids[j]
  }

  /** A duplicate-free list holds each value at most once. */
  lemma {:induction false} DistinctMultiplicity<T>(a: seq<T>, x: T)
    requires Distinct(a)
    ensures multiset(a)[x] <= 1
    decreases |a|
  {
    if a != [] {
      assert a == [a[0]] + a[1..];
      assert Distinct(a[1..]) by {
        forall i, j | 0 <= i < j < |a[1..]| ensures a[1..][i] != a[1..][j] {
          assert a[1..][i] == a[i + 1] && a[1..][j] == a[j + 1];
        }
      }
      DistinctMultiplicity(a[1..], x);
      if a[0] == x {
        assert x !in a[1..] by {
          forall k | 0 <= k < |a[1..]| ensures a[1..][k] != x {
            assert a[1..][k] == a[k + 1];
          }
        }
        assert multiset(a[1..])[x] == 0;
      }
    }
  }

  /** A rearrangement of a duplicate-free list is duplicate-free. */
  lemma DistinctPermutation<T>(a: seq<T>, b: seq<T>)
    requires Distinct(a) && multiset(a) == multiset(b)
    ensures Distinct(b)
  {
    forall i, j | 0 <= i < j < |b| ensures b[i] != b[j] {
      if b[i] == b[j] {
        var x := b[i];
        assert b == b[..j] + [b[j]] + b[j + 1..];
        assert x in b[..j];
        assert multiset(b)[x] == multiset(b[..j])[x] + 1 + multiset(b[j + 1..])[x];
        DistinctMultiplicity(a, x);
        assert false;
      }
    }
  }

  /** Removing an id that is not there changes nothing. */
  lemma {:induction false} WithoutAbsent(ids: seq<int>, id: int)
    requires id !in ids
    ensures Without(ids, id) == ids
    decreases |ids|
  {
    if ids != [] {
      WithoutAbsent(ids[1..], id);
      assert [ids[0]] + ids[1..] == ids;
    }
  }

  /** Removing distributes over concatenation. */
  lemma {:induction false} WithoutConcat(a: seq<int>, b: seq<int>, id: int)
    ensures Without(a + b, id) == Without(a, id) + Without(b, id)
    decreases |a|
  {
    if a != [] {
      assert (a + b)[0] == a[0] && (a + b)[1..] == a[1..] + b;
      WithoutConcat(a[1..], b, id);
    } else {
      assert a + b == b;
    }
  }

  /** Removing an id twice is removing it once. */
  lemma {:induction false} WithoutIdempotent(ids: seq<int>, id: int)
    ensures Without(Without(ids, id), id) == Without(ids, id)
  {
    WithoutAbsent(Without(ids, id), id);
  }

  /** Removing keeps the ids that remain free of duplicates. */
  lemma {:induction false} WithoutDistinct(ids: seq<int>, id: int)
    requires Distinct(ids)
    ensures Distinct(Without(ids, id))
    decreases |ids|
  {
    if ids != [] {
      assert Distinct(ids[1..]);
      WithoutDistinct(ids[1..], id);
      if ids[0] != id {
        var rest := Without(ids[1..], id);
        assert ids[0] !in rest by {
          assert ids[0] !in ids[1..];
        }
        var r := [ids[0]] + rest;
        forall i, j | 0 <= i < j < |r| ensures r[i] != r[j] {
          if i == 0 {
            assert r[j] == rest[j - 1];
          } else {
            assert r[i] == rest[i - 1] && r[j] == rest[j - 1];
          }
        }
      }
    }
  }

  /** Toggling an absent id appends it at the end. */
  lemma ToggleAbsentAppends(ids: seq<int>, id: int)
    requires id !in ids
    ensures Toggle(ids, id) == ids + [id]
    ensures Toggle(ids, id)[|ids|] == id
  {
  }

  /** Toggling a present id removes every occurrence of it and nothing else. */
  lemma TogglePresentRemoves(ids: seq<int>, id: int)
    requires id in ids
    ensures id !in Toggle(ids, id)
    ensures forall x :: x != id ==> (x in Toggle(ids, id) <==> x in ids)
  {
  }

  /** A toggle flips the membership of `id` only. */
  lemma ToggleFlipsMembership(ids: seq<int>, id: int, x: int)
    ensures x in Toggle(ids, id) <==> (if x == id then x !in ids else x in ids)
  {
  }

  /** Every other id keeps its relative order: seen without `id`, the list is unchanged. */
  lemma {:induction false} ToggleKeepsOthersInOrder(ids: seq<int>, id: int)
    ensures Without(Toggle(ids, id), id) == Without(ids, id)
  {
    if id in ids {
      WithoutIdempotent(ids, id);
    } else {
      WithoutConcat(ids, [id], id);
      assert Without([id], id) == [];
    }
  }

  /** Toggling an absent id twice restores the list exactly. */
  lemma {:induction false} ToggleTwiceRestores(ids: seq<int>, id: int)
    requires id !in ids
    ensures Toggle(Toggle(ids, id), id) == ids
  {
    assert Toggle(ids, id) == ids + [id];
    WithoutConcat(ids, [id], id);
    WithoutAbsent(ids, id);
    assert Without([id], id) == [];
  }

  /** A toggle keeps a duplicate-free list duplicate-free. */
  lemma {:induction false} ToggleKeepsDistinct(ids: seq<int>, id: int)
    requires Distinct(ids)
    ensures Distinct(Toggle(ids, id))
  {
    if id in ids {
      WithoutDistinct(ids, id);
    } else {
      var r := ids + [id];
      forall i, j | 0 <= i < j < |r| ensures r[i] != r[j] {
        if j == |ids| {
          assert r[i] == ids[i];
        }
      }
    }
  }
}

=== FILE: testimonial_card.dfy ===
/** The avatar of `resources/js/components/public/TestimonialCard.tsx`: the photo when
    one is given, otherwise the initials
    `name.split(' ').map(n => n[0]).slice(0, 2).join('')`. */
module Testimonial {
  import opened Common
  import Text

  /** `n[0]` as it ends up in the join: the first character, or nothing for an empty
      piece (`undefined` joins as the empty string). */
  function FirstChar(piece: string): (r: string)
    ensures piece != [] ==> r == [piece[0]]
    ensures piece == [] ==> r == []
  {
    if piece == [] then [] else [piece[0]]
  }

  /** `pieces.map(n => n[0]).join('')`. */
  function FirstChars(pieces: seq<string>): (r: string)
    ensures |r| <= |pieces|
    decreases |pieces|
  {
    if pieces == [] then [] else FirstChar(pieces[0]) + FirstChars(pieces[1..])
  }

  /** `s.slice(0, 2)`. */
  function TakeTwo<T>(s: seq<T>): (r: seq<T>)
    ensures |r| == if |s| < 2 then |s| else 2
    ensures r == s[..|r|]
  {
    if |s| < 2 then s else s[..2]
  }

  lemma FirstCharsOfTwo(x: string, y: string)
    ensures FirstChars([x, y]) == FirstChar(x) + FirstChar(y)
  {
    assert [x, y][1..] == [y];
    assert [y][1..] == [];
  }

  /** The initials shown when there is no photo; at most two characters. */
  function Initials(name: string): (r: string)
    ensures |r| <= 2
  {
    FirstChars(TakeTwo(Text.Split(name, ' ')))
  }

  /** A single word gives its first character. */
  lemma InitialsOfOneWord(a: string)
    requires ' ' !in a && a != ""
    ensures Initials(a) == [a[0]]
  {
    Text.SplitWithout(a, ' ');
  }

  /** Two space-free pieces give the first character of each; an empty piece (a
      doubled or trailing space) contributes nothing. */
  lemma InitialsOfTwoWords(a: string, b: string)
    requires ' ' !in a && ' ' !in b
    ensures Initials(a + " " + b) == FirstChar(a) + FirstChar(b)
    ensures a != "" && b != "" ==> Initials(a + " " + b) == [a[0], b[0]]
  {
    Text.SplitAfter(a, ' ', b);
    Text.SplitWithout(b, ' ');
    assert a + " " + b == a + [' '] + b;
    assert Text.Split(a + " " + b, ' ') == [a, b];
    assert TakeTwo([a, b]) == [a, b];
    FirstCharsOfTwo(a, b);
  }

  /** Words after the second do not matter. */
  lemma InitialsIgnoreLaterWords(a: string, b: string, rest: string)
    requires ' ' !in a && ' ' !in b
    ensures Initials(a + " " + b + " " + rest) == Initials(a + " " + b)
  {
    var later := Text.Split(rest, ' ');
    Text.SplitAfter(b, ' ', rest);
    assert a + " " + b + " " + rest == a + [' '] + (b + [' '] + rest);
    Text.SplitAfter(a, ' ', b + [' '] + rest);
    Text.SplitAfter(a, ' ', b);
    Text.SplitWithout(b, ' ');
    assert Text.Split(a + " " + b + " " + rest, ' ') == [a, b] + later;
    assert a + " " + b == a + [' '] + b;
    assert Text.Split(a + " " + b, ' ') == [a, b];
    assert TakeTwo([a, b] + later) == [a, b] == TakeTwo([a, b]);
  }

  /** A leading space makes an empty first piece: it contributes nothing but still
      takes one of the two places, so only the next word's initial is shown. */
  lemma InitialsAfterLeadingSpace(a: string, rest: string)
    requires ' ' !in a && a != ""
    ensures Initials(" " + a + " " + rest) == [a[0]]
  {
    Text.SplitAfter([], ' ', a + " " + rest);
    assert " " + a + " " + rest == [] + [' '] + (a + " " + rest);
    Text.SplitAfter(a, ' ', rest);
    assert a + " " + rest == a + [' '] + rest;
    var pieces := Text.Split(" " + a + " " + rest, ' ');
    assert pieces == [""] + ([a] + Text.Split(rest, ' '));
    assert TakeTwo(pieces) == ["", a];
    FirstCharsOfTwo("", a);
  }

  /** What fills the round avatar. */
  datatype Avatar = Photo(src: string, alt: string) | InitialsBadge(text: string)

  /** `photo ? <img src={photo} alt={`${name} photo`}> : initials`. */
  function AvatarOf(name: string, photo: Option<string>): (r: Avatar)
    ensures Truthy(photo) ==> r == Photo(photo.value, name + " photo")
    ensures !Truthy(photo) ==> r == InitialsBadge(Initials(name))
  {
    if Truthy(photo) then Photo(photo.value, name + " photo") else InitialsBadge(Initials(name))
  }

  /** `role && <p>{role}</p>`: the role line appears only for a non-empty role. */
  function RoleLine(role: Option<string>): (r: Option<string>)
    ensures r.Some? <==> Truthy(role)
    ensures r.Some? ==> r.value == role.value
  {
    if Truthy(role) then Some(role.value) else None
  }
}

=== FILE: text.dfy ===
/** The string operations the pages rely on: `split` on one character, `join`,
    decimal rendering of numbers in template strings, and the field-label rewrite.
    Strings are sequences of `char`, that is of Unicode scalar values, not of UTF-16
    code units. */
module Text {

  /** `s.split(d)` for a one-character separator: the pieces between separators, in
      order; an empty string gives one empty piece. */
  function Split(s: string, d: char): (r: seq<string>)
    ensures |r| >= 1
    ensures forall i :: 0 <= i < |r| ==> d !in r[i]
    decreases |s|
  {
    if s == [] then [""]
    else
      var rest := Split(s[1..], d);
      if s[0] == d then [""] + rest else [[s[0]] + rest[0]] + rest[1..]
  }

  /** `parts.join(sep)`. */
  function Join(parts: seq<string>, sep: string): string
  {
    if |parts| == 0 then ""
    else if |parts| == 1 then parts[0]
    else parts[0] + sep + Join(parts[1..], sep)
  }

  /** Joining the pieces of a split with the separator gives back the string. */
  lemma {:induction false} JoinSplit(s: string, d: char)
    ensures Join(Split(s, d), [d]) == s
    decreases |s|
  {
    if s != [] {
      var rest := Split(s[1..], d);
      JoinSplit(s[1..], d);
      if s[0] == d {
        assert Split(s, d) == [""] + rest;
        assert ([""] + rest)[1..] == rest;
        assert s == [d] + s[1..];
      } else if |rest| == 1 {
        assert Split(s, d) == [[s[0]] + rest[0]];
        assert s == [s[0]] + s[1..];
      } else {
        var parts := [[s[0]] + rest[0]] + rest[1..];
        assert Split(s, d) == parts;
        assert parts[1..] == rest[1..];
        assert Join(rest, [d]) == rest[0] + [d] + Join(rest[1..], [d]);
        assert s == [s[0]] + s[1..];
      }
    }
  }

  /** A string without the separator splits into itself alone. */
  lemma {:induction false} SplitWithout(a: string, d: char)
    requires d !in a
    ensures Split(a, d) == [a]
    decreases |a|
  {
    if a != [] {
      SplitWithout(a[1..], d);
      assert [a[0]] + a[1..] == a;
    }
  }

  /** A separator-free prefix followed by the separator is split off as one piece. */
  lemma {:induction false} SplitAfter(a: string, d: char, rest: string)
    requires d !in a
    ensures Split(a + [d] + rest, d) == [a] + Split(rest, d)
    decreases |a|
  {
    var s := a + [d] + rest;
    if a == [] {
      assert s[0] == d && s[1..] == rest;
    } else {
      assert s[0] == a[0] && s[1..] == a[1..] + [d] + rest;
      SplitAfter(a[1..], d, rest);
      assert [a[0]] + a[1..] == a;
    }
  }

  /** Splitting a join of separator-free pieces gives back the pieces. */
  lemma {:induction false} SplitJoin(parts: seq<string>, d: char)
    requires |parts| >= 1
    requires forall i :: 0 <= i < |parts| ==> d !in parts[i]
    ensures Split(Join(parts, [d]), d) == parts
    decreases |parts|
  {
    if |parts| == 1 {
      SplitWithout(parts[0], d);
    } else {
      SplitJoin(parts[1..], d);
      SplitAfter(parts[0], d, Join(parts[1..], [d]));
      assert [parts[0]] + parts[1..] == parts;
    }
  }

  /** Whatever precedes the last separator, the pieces of what follows it end the split. */
  lemma {:induction false} SplitKeepsTail(a: string, d: char, rest: string)
    ensures |Split(a + [d] + rest, d)| > |Split(rest, d)|
    ensures Split(a + [d] + rest, d)[|Split(a + [d] + rest, d)| - |Split(rest, d)|..] == Split(rest, d)
    decreases |a|
  {
    var s := a + [d] + rest;
    if a == [] {
      assert s[0] == d && s[1..] == rest;
    } else {
      assert s[0] == a[0] && s[1..] == a[1..] + [d] + rest;
      SplitKeepsTail(a[1..], d, rest);
    }
  }

  /** The last piece is what follows the last separator. */
  lemma LastPiece(a: string, d: char, rest: string)
    requires d !in rest
    ensures Last(Split(a + [d] + rest, d)) == rest
  {
    SplitKeepsTail(a, d, rest);
    SplitWithout(rest, d);
    var r := Split(a + [d] + rest, d);
    assert r[|r| - 1..] == [rest];
  }

  /** The last element of a non-empty sequence (`Array.prototype.pop`'s result). */
  function Last<T>(s: seq<T>): (r: T)
    requires |s| >= 1
    ensures r == s[|s| - 1]
  {
    s[|s| - 1]
  }

  // ---------------------------------------------------------------------------
  // Decimal rendering of a number inside a template string.

  predicate IsDigit(c: char)
  {
    '0' <= c <= '9'
  }

  function DigitChar(d: nat): (c: char)
    requires d < 10
    ensures IsDigit(c) && c as int - '0' as int == d
  {
    ('0' as int + d) as char
  }

  /** The decimal text of a non-negative integer, without leading zeros. */
  function NatToString(n: nat): (r: string)
    ensures |r| >= 1
    ensures forall i :: 0 <= i < |r| ==> IsDigit(r[i])
    ensures r[0] == '0' <==> n == 0
    ensures r[0] == '0' ==> |r| == 1
    decreases n
  {
    if n < 10 then [DigitChar(n)] else NatToString(n / 10) + [DigitChar(n % 10)]
  }

  /** The value of a string of decimal digits. */
  function DecimalValue(s: string): nat
    requires forall i :: 0 <= i < |s| ==> IsDigit(s[i])
    decreases |s|
  {
    if s == [] then 0
    else
      assert IsDigit(s[|s| - 1]);
      DecimalValue(s[..|s| - 1]) * 10 + (s[|s| - 1] as int - '0' as int)
  }

  /** Reading back the decimal text of `n` gives `n`. */
  lemma {:induction false} NatToStringValue(n: nat)
    ensures DecimalValue(NatToString(n)) == n
    decreases n
  {
    var r := NatToString(n);
    if n >= 10 {
      NatToStringValue(n / 10);
      assert r[..|r| - 1] == NatToString(n / 10);
    }
  }

  /** A string of digits without a leading zero (other than "0" itself) is the decimal
      text of its value. */
  lemma {:induction false} DecimalValueString(s: string)
    requires |s| >= 1 && forall i :: 0 <= i < |s| ==> IsDigit(s[i])
    requires s[0] != '0' || |s| == 1
    ensures NatToString(DecimalValue(s)) == s
    decreases |s|
  {
    if |s| >= 2 {
      var init := s[..|s| - 1];
      DecimalValueString(init);
      var v := DecimalValue(init);
      assert v != 0 by {
        assert init[0] == s[0];
      }
      var d := s[|s| - 1] as int - '0' as int;
      var n := v * 10 + d;
      assert n / 10 == v && n % 10 == d;
      assert s == init + [s[|s| - 1]];
    }
  }

  /** `String(i)` for an integer. */
  function IntToString(i: int): (r: string)
    ensures |r| >= 1
    ensures i >= 0 ==> r == NatToString(i)
    ensures i < 0 ==> r == "-" + NatToString(-i)
  {
    if i < 0 then "-" + NatToString(-i) else NatToString(i)
  }

  // ---------------------------------------------------------------------------
  // Field labels: `field.replace(/_/g, ' ').replace(/^\w/, c => c.toUpperCase())`.

  /** `s.replace(/_/g, ' ')`. */
  function UnderscoresToSpaces(s: string): (r: string)
    ensures |r| == |s|
    ensures forall i :: 0 <= i < |s| ==> r[i] == (if s[i] == '_' then ' ' else s[i])
    decreases |s|
  {
    if s == [] then []
    else [if s[0] == '_' then ' ' else s[0]] + UnderscoresToSpaces(s[1..])
  }

  /** A character matched by the regular expression class `\w` (no `u` flag). */
  predicate IsWordChar(c: char)
  {
    'a' <= c <= 'z' || 'A' <= c <= 'Z' || IsDigit(c) || c == '_'
  }

  /** `toUpperCase` restricted to what `\w` can match: only ASCII letters change. */
  function UpperWordChar(c: char): (u: char)
    requires IsWordChar(c)
    ensures 'a' <= c <= 'z' ==> 'A' <= u <= 'Z' && u as int == c as int - 32
    ensures !('a' <= c <= 'z') ==> u == c
  {
    if 'a' <= c <= 'z' then (c as int - 32) as char else c
  }

  /** `s.replace(/^\w/, c => c.toUpperCase())`. */
  function UpperFirst(s: string): (r: string)
    ensures |r| == |s|
    ensures forall i :: 0 < i < |s| ==> r[i] == s[i]
    ensures |s| > 0 && !IsWordChar(s[0]) ==> r == s
    ensures |s| > 0 && IsWordChar(s[0]) ==> r[0] == UpperWordChar(s[0])
  {
    if |s| > 0 && IsWordChar(s[0]) then [UpperWordChar(s[0])] + s[1..] else s
  }
}
